=== FILE: README.md ===
# FeroxApp account lifecycle, in Dafny

This project models the account lifecycle of the FeroxApp backend and the
client-side form checks that come before it:

- the `User` data-access model (`findById`, `findOne`, `create`, `update`,
  `linkDiscord`, `generateNewActivationCode`, `setRecoveryCode`,
  `validateRecoveryCode`) over the `users` table;
- the auth controller: `login`, `getMe`, and password recovery
  (`recoverPassword`, `validateRecoveryCode`, `resetPassword`);
- the user controller: `getUsers`, `getUserById`, `createUser`,
  `generateActivationCode` and `checkUserStatus`;
- the Discord controller's `linkAccount`, which redeems an activation code;
- the `validateForm` checks of the mobile registration and create-user
  screens.

An account is created inactive with an eight-character activation code.
Redeeming the code through the Discord bot links the Discord identity,
activates the account and consumes the code. Only an active account can
log in. A linked account can recover its password with a six-digit code.
The code is delivered over Discord and is valid for fifteen minutes.

## Modules

| file | module | contents |
|---|---|---|
| js_values.dfy | `JsValues` | optional request fields, string truthiness, `value \|\| null`, UTF-16 `length`, the `\s`/`trim` whitespace class, `trim` |
| codes.dfy | `Codes` | activation codes (four random bytes as upper-case hex) and recovery codes (six decimal digits), each with its decoder |
| user_model.dfy | `UserModel` | the `users` table as a sequence of rows in table order, and the data-access operations |
| views.dfy | `Views` | a row without its password hash, and a row without any secret column (hash, activation code, recovery code and expiry) |
| invariants.dfy | `AccountInvariants` | the table invariant `Wf` and the lookup facts that hold under it |
| auth_controller.dfy | `AuthController` | login, profile, password recovery |
| user_controller.dfy | `UserController` | user listing, creation, activation codes, status |
| discord_controller.dfy | `DiscordController` | `linkAccount` |
| public_listing.dfy | `PublicListing` | the public user listing against the activation and recovery codes |
| register_screen.dfy | `RegisterScreen` | the registration form check |
| create_user_screen.dfy | `CreateUserScreen` | the create-user form check, including its e-mail pattern |

How the outside world appears in the model:

- The table is a `seq<Account>`. Every `SELECT` returns its first matching
  row, as `rows[0] || null` does. Every `UPDATE … WHERE id = ?` rewrites
  every row with that id.
- A query that throws becomes `Db.Threw`. An operation returns its reply
  together with the table as it stands afterwards (`Step`).
- bcrypt is the parameter `hash`; `bcrypt.compare(p, h)` holds when
  `hash(p) == h`.
- The clock is the parameter `now`, in milliseconds.
- The random bytes of an activation code are the parameter `random`.
- The recovery-code draw `Math.floor(Math.random() * 900000)` is the
  parameter `draw`.
- The id derived from `Date.now()` is the parameter `id`.
- The outcome of the call to the Discord bot is the parameter `delivered`.
- A request body field is an `Option<string>`; `None` means the field is
  absent.

The invariant `Wf` says:

- ids are unique;
- usernames are unique up to case;
- stored e-mails are unique;
- stored Discord ids are unique;
- an active row is linked to Discord;
- a row holds an activation code exactly while it is inactive;
- the recovery code and its expiry are set together;
- a stored Discord id or e-mail is never empty.

Every endpoint that writes to the table is proved to keep `Wf`:
`CreateUserKeepsWf`, `GenerateActivationCodeKeepsWf`, `LinkAccountKeepsWf`,
`RecoverPasswordKeepsWf` and `ResetPasswordKeepsWf`. The data-access
operations alone do not keep it: `UserModel.Create` inserts a duplicate
username or e-mail if asked to, and the controllers' checks are what
prevent that.

## Model

| member | source | states |
|---|---|---|
| UserModel.FirstMatch | backend/models/User.js:48-49 | the position returned is the first row satisfying the WHERE clause; None exactly when no row does |
| UserModel.FindById | backend/models/User.js:16-24 | `findById` gives a row with the requested id, and gives one exactly when such a row exists |
| UserModel.FindOne | backend/models/User.js:27-54 | `findOne` returns a row of the table matching the clause of the first truthy key, and null exactly when no row matches that clause or there is no truthy key |
| UserModel.FindOneByUsername | backend/models/User.js:32-34 | a username lookup succeeds exactly when some stored name equals the query up to case, and the row found matches that way |
| UserModel.FindOnePrecedence | backend/models/User.js:32-46 | only the first truthy key counts, in the order username, email, activation code, Discord id; with none, the result is null |
| UserModel.Create | backend/models/User.js:57-91 | the insert fails exactly when the id is already taken, leaving the table alone. Otherwise it appends one row: inactive, holding the activation code drawn from `random`, with `email \|\| null`, no Discord or recovery data, and found again by `findById` |
| UserModel.ApplyLaws | backend/models/User.js:102-108 | applying a SET patch twice equals applying it once; a patch never changes the id; the empty patch changes nothing |
| UserModel.ApplyChangesOnlyPatched | backend/models/User.js:102-108 | a patch changes exactly the columns it names: the patched row agrees with the original on every other column, and two rows patch to the same row exactly when they agree outside the patch |
| UserModel.Update | backend/models/User.js:94-124 | an empty patch throws; an unknown id gives null with no change; otherwise exactly the rows with the id are patched and the first of them is returned |
| UserModel.FirstMatchAfterPatch | backend/models/User.js:108 | an `UPDATE … WHERE id = ?` leaves the first position holding that id where it was |
| UserModel.LinkDiscord | backend/models/User.js:127-150 | no holder of the code (or an empty code) gives null and no change; otherwise the first holder's id is patched with the Discord identity, activated and stripped of its code |
| UserModel.LinkDiscordActivates | backend/models/User.js:137-145 | the linked row is active, has no activation code and carries the given identity; every other column keeps its earlier value |
| UserModel.LinkDiscordOnce | backend/models/User.js:130-142 | when one row held the code, redeeming it a second time gives null and changes nothing |
| UserModel.GenerateNewActivationCode | backend/models/User.js:153-171 | an unknown id gives null and no change; otherwise the new code is stored in the activation-code column of that id and returned |
| UserModel.SetRecoveryCode | backend/models/User.js:174-190 | an unknown id gives null and no change; otherwise code and expiry are stored for that id, and the row returned is the first row with the id with exactly those two columns changed |
| UserModel.ValidateRecoveryCode | backend/models/User.js:193-210 | true exactly when the row `findById` gives exists, holds exactly the given code, and its expiry is not before `now` |
| UserModel.ValidateRecoveryCodeAt | backend/models/User.js:195-205 | for a known id, the check reads the first row with that id: matching code and expiry not before `now` |
| UserModel.RecoveryExpiryBoundary | backend/models/User.js:201 | at the expiry instant the code is still accepted; one millisecond later it is refused |
| Codes.HexRoundTrip | backend/models/User.js:60 | decoding the upper-case hex rendering gives back the bytes |
| Codes.HexInjective | backend/models/User.js:60 | distinct random bytes give distinct activation codes |
| Codes.ActivationCode | backend/models/User.js:155 | an activation code has eight upper-case hex digits and decodes to the four random bytes |
| Codes.DecimalRoundTrip | backend/controllers/authController.js:107 | the decimal rendering of a number reads back as that number |
| Codes.DecimalLength | backend/controllers/authController.js:107 | a number with `k` digits renders as `k` characters |
| Codes.RecoveryCode | backend/controllers/authController.js:107 | a recovery code has six decimal digits, and its value is `100000 + draw`, within [100000, 999999] |
| JsValues.OrNull | backend/models/User.js:75 | `value \|\| null` is non-null exactly for a truthy value, which it keeps |
| JsValues.Length | mobile/src/screens/CreateUserScreen.js:49 | `length` counts UTF-16 code units: between one and two per character, and one per character when all lie in the Basic Multilingual Plane |
| JsValues.Trim | mobile/src/screens/CreateUserScreen.js:32 | `trim` never lengthens, leaves no whitespace at either end, and gives "" for an all-whitespace string |
| JsValues.TrimEmptyIff | mobile/src/screens/CreateUserScreen.js:32-40 | `!s.trim()` holds exactly when `s` is whitespace only |
| Views.ViewLosesOnlyPassword | backend/controllers/userController.js:10-13 | stripping the password loses only the hash: the view plus the hash rebuilds the row, and two rows have the same view exactly when they differ at most in the hash |
| AccountInvariants.FindByIdUnique | backend/models/User.js:16-24 | under unique ids, `findById` of a row's id returns that row |
| AccountInvariants.DiscordHolderUnique | backend/models/User.js:41-43 | under unique Discord ids, a lookup by a row's Discord id finds that row |
| AccountInvariants.PatchRowsUnique | backend/models/User.js:97-112 | under unique ids, an update by id rewrites exactly one row |
| AccountInvariants.FirstMatchSameKeys | backend/models/User.js:48-49 | tables that agree on which rows match a clause give the same first match |
| AccountInvariants.SetRowKeepsDiscordIdsUnique | backend/models/User.js:137-145 | rewriting one row keeps Discord ids unique when the new row takes no Discord id another row holds |
| AccountInvariants.SetRowKeepsWf | backend/models/User.js:94-124 | rewriting one row keeps `Wf` when the row stays well formed, keeps id, username and e-mail, and takes no Discord id held elsewhere |
| AccountInvariants.AppendKeepsWf | backend/models/User.js:65-83 | inserting a well-formed row with a fresh id, username and e-mail and no Discord id keeps `Wf` |
| AuthController.Login | backend/controllers/authController.js:7-69 | 400 exactly for a missing username or password. 403 or success only when the username lookup finds a row whose hash matches: 403 for an inactive row, carrying its activation code and id; success for an active row, with a token for its id and the public profile |
| AuthController.LoginReference | backend/controllers/authController.js:17-38 | on a `Wf` table, checked against a declarative reference. The same "invalid credentials" reply comes exactly when no row has both a matching name and a matching hash. Success comes exactly when such a row is active. Such a row that is inactive gets 403 with its own code and id |
| AuthController.LoginTokenBindsAccount | backend/controllers/authController.js:41-45 | a successful login's token names an existing row that is active, linked to Discord and has no activation code |
| AuthController.GetMe | backend/controllers/authController.js:72-87 | a profile is returned exactly when the token's id exists, and it is that row without its hash |
| AuthController.ResolveOrder | backend/controllers/authController.js:95-101 | a username match (up to case) wins; the e-mail is consulted only when no username matches; none of either gives not found |
| AuthController.RecoverPassword | backend/controllers/authController.js:90-125 | 400 for a missing identifier, 404 for an unknown account, 400 for an unlinked one, all without change. Otherwise a six-digit code expiring in fifteen minutes is stored on the account whether or not delivery succeeds, with 200 on delivery and 500 otherwise |
| AuthController.DeliveryFailureKeepsCode | backend/controllers/authController.js:109-120 | a failed delivery stores exactly what a successful one stores |
| AuthController.ValidateRecovery | backend/controllers/authController.js:128-150 | 404 exactly when the account does not resolve; the code is valid only if `validateRecoveryCode` accepts it for the resolved id, whose id is returned |
| AuthController.ResetPassword | backend/controllers/authController.js:153-178 | 404 for an unknown account and 400 for a bad or expired code; 500 when the new password is missing; all three without change. Otherwise that id's hash is replaced and both recovery columns are cleared |
| AuthController.ResolveAfterRewrite | backend/controllers/authController.js:157-163 | rewriting the resolved row without touching id, username or e-mail keeps it the resolved row |
| AuthController.ResetConsumesCode | backend/controllers/authController.js:167-171 | after a reset the account still resolves, holds the new hash and no recovery data, and the same code is refused at any time |
| AuthController.IssuedCodeWindow | backend/controllers/authController.js:107-109 | right after a code is issued, checking it succeeds exactly at instants up to `now` plus fifteen minutes |
| AuthController.RecoverPasswordKeepsWf | backend/controllers/authController.js:107-109 | issuing a recovery code keeps `Wf` |
| AuthController.ResetPasswordKeepsWf | backend/controllers/authController.js:170-171 | a password reset keeps `Wf` |
| UserController.GetUsers | backend/controllers/userController.js:5-20 | one view per row, in table order, each rebuilding its row with the row's hash |
| UserController.GetUserById | backend/controllers/userController.js:23-37 | 404 exactly when no row has the id; otherwise the view of the row with that id |
| UserController.CreateUser | backend/controllers/userController.js:40-84 | 400 exactly for a missing username or password. 400 "taken" exactly when a name is equal up to case. 400 for the e-mail exactly when the name is free and a truthy e-mail is already stored. 500 exactly when name and e-mail pass and the id is already taken. Otherwise one row is appended and returned without its hash: the given id and username, the hash, `email \|\| null`, inactive with the new activation code, and no Discord or recovery data |
| UserController.CreateUserEmailOptional | backend/controllers/userController.js:51-57 | without a truthy e-mail the request is never refused for its e-mail, and the account stores a null e-mail |
| UserController.CreateUserKeepsWf | backend/controllers/userController.js:40-84 | creating an account keeps `Wf` |
| UserController.GenerateActivationCode | backend/controllers/userController.js:87-111 | 404 exactly for an unknown id and 400 exactly for an active account, both without change. Otherwise the new code is returned and stored in that id's activation-code column |
| UserController.GenerateActivationCodeKeepsWf | backend/controllers/userController.js:87-111 | reissuing keeps `Wf` and rewrites only the activation code of the one inactive row with the id |
| UserController.CheckUserStatus | backend/controllers/userController.js:114-131 | 404 exactly for an unknown id; otherwise the row's active flag, with "linked" exactly when its Discord id is truthy |
| UserController.StatusOnWfTable | backend/controllers/userController.js:114-131 | on a `Wf` table, "linked" is exactly "a Discord id is stored", and an active account always reports linked |
| DiscordController.LinkAccount | backend/controllers/discordController.js:4-45 | 400 exactly for an incomplete body, and 404 exactly when no row holds the code; every refusal leaves the table alone. A success returns the first holder's row, patched with the Discord identity, activated and without a code, and stripped of its hash |
| PublicListing.ListingRevealsRecoveryCode | backend/controllers/userController.js:5-20 | right after a recovery code is issued, the account's entry in `getUsers` carries that code, and `resetPassword` with it and any new password succeeds |
| PublicListing.PublicUsers | backend/controllers/userController.js:5-20 | the corrected listing: one entry per row in table order, which with the row's hash, activation code, recovery code and expiry rebuilds the row |
| PublicListing.PublicRowUnchanged | backend/controllers/userController.js:10-13 | rewriting one row in its hash, activation-code or recovery columns only leaves the corrected listing exactly as it was |
| PublicListing.PublicListingHidesRecovery | backend/controllers/authController.js:107-109 | issuing a recovery code leaves the corrected listing exactly as it was, so it reveals nothing about the code |
| PublicListing.FreshIdentityNotInUse | backend/controllers/discordController.js:20-25 | a Discord id no row holds never gets the 409 "already linked" reply |
| PublicListing.FreshIdentityLinks | backend/controllers/discordController.js:4-36 | any held activation code, sent with a Discord identity no row holds, is redeemed |
| PublicListing.ListingRevealsActivationCode | backend/controllers/userController.js:5-20 | an inactive account's entry in `getUsers` carries its activation code, and the link endpoint with that code and any unused Discord identity activates an account linked to that identity |
| PublicListing.PublicUserById | backend/controllers/userController.js:23-37 | the corrected by-id reply: present exactly when a row has the id, and with that row's hash, activation code, recovery code and expiry it rebuilds the row |
| PublicListing.PublicRowUnchangedById | backend/controllers/userController.js:23-37 | rewriting one row in its secret columns only leaves the corrected by-id reply for every id exactly as it was |
| PublicListing.ByIdRevealsRecoveryCode | backend/controllers/userController.js:23-37 | right after a recovery code is issued, `getUserById` of the resolved account carries that code, and `resetPassword` with it and any new password succeeds |
| PublicListing.PublicUserByIdHidesRecovery | backend/controllers/authController.js:107-109 | issuing a recovery code leaves the corrected by-id reply for every id exactly as it was |
| PublicListing.ByIdRevealsActivationCode | backend/controllers/userController.js:23-37 | `getUserById` of an inactive account carries its activation code, and the link endpoint with that code and any unused Discord identity links an account to that identity |
| PublicListing.PublicUserByIdHidesActivation | backend/controllers/userController.js:87-111 | reissuing an activation code leaves the corrected by-id reply for every id exactly as it was |
| PublicListing.PublicListingHidesActivation | backend/controllers/userController.js:87-111 | reissuing an activation code leaves the corrected listing exactly as it was, so it reveals nothing about the code |
| Views.PublicViewLosesOnlySecrets | backend/controllers/userController.js:10-13 | the public view loses only the hash, the activation code and the two recovery columns: with them it rebuilds the row, and two rows have the same view exactly when they differ at most in those columns |
| DiscordController.LinkAccountNeverFails | backend/controllers/discordController.js:28-36 | the 500 reply for a null `linkDiscord` result is never produced |
| DiscordController.InUseByLookups | backend/controllers/discordController.js:14-25 | 409 exactly when the code has a holder and the Discord id's holder is a different account |
| DiscordController.LinkAccountConflictIff | backend/controllers/discordController.js:9-25 | with unique Discord ids, 409 exactly when the body is complete, the code has a holder, and a row with a different id holds the Discord id; re-linking one's own id is allowed |
| DiscordController.LinkedShape | backend/controllers/discordController.js:14-32 | a success rewrites only the first holder of the code, and no other row holds the Discord id |
| DiscordController.LinkAccountKeepsWf | backend/controllers/discordController.js:4-45 | linking keeps `Wf`, and a success rewrites exactly one holder of the code |
| DiscordController.LinkKeepsDiscordIdsUnique | backend/controllers/discordController.js:21-32 | starting from unique ids and unique Discord ids, linking keeps Discord ids unique, and the linked account is found active afterwards |
| DiscordController.LinkAccountTwice | backend/controllers/discordController.js:14-18 | when one row held the code, a second complete request with it gets 404 and changes nothing |
| RegisterScreen.ValidateForm | mobile/src/screens/auth/RegisterScreen.js:35-57 | each refusal happens exactly when its check is the first to fail, in the order required fields, confirmation, six code units, e-mail pattern; acceptance exactly when all pass, with an empty e-mail allowed |
| RegisterScreen.EarlierChecksDecide | mobile/src/screens/auth/RegisterScreen.js:35-54 | a refusal before the e-mail check depends neither on the e-mail nor on the pattern, and an empty e-mail never reaches the pattern |
| RegisterScreen.AcceptedPassword | mobile/src/screens/auth/RegisterScreen.js:41-49 | an accepted password equals its confirmation, has at least six code units, and so at least three characters |
| CreateUserScreen.EmailShapeIff | mobile/src/screens/CreateUserScreen.js:43 | the direct check (a plain part before the first `@`, then a plain part with an inner `.`) accepts exactly the language of `^[^\s@]+@[^\s@]+\.[^\s@]+$` |
| CreateUserScreen.ValidateForm | mobile/src/screens/CreateUserScreen.js:31-55 | each refusal happens exactly when its check is the first to fail, in the order blank name, blank e-mail, e-mail pattern, blank or short password; acceptance exactly when all pass |
| CreateUserScreen.UntrimmedChecks | mobile/src/screens/CreateUserScreen.js:37-52 | an e-mail starting with whitespace is always refused, since the pattern sees the untrimmed text; six whitespace characters pass the length test but fail the blank test |

## Left out

- SQL text, the connection pool and MySQL itself: the table is a sequence, and each query is its effect on that sequence.
- MySQL collation: username comparison is `LOWER` on ASCII letters only, and e-mail comparison is exact, as the code writes `email = ?`. Case-insensitive collations and non-ASCII case mapping are not modelled.
- `DATETIME` storage: the expiry is kept in milliseconds. How the database stores fractional seconds (rounded or truncated, depending on its settings and the column's precision) is not modelled.
- Clock skew between Node and the database: both read the one parameter `now`.
- JWT signing: the token is `Token(userId)`. Its secret, its seven-day lifetime and a signing error are not modelled. The auth middleware is not part of this model.
- bcrypt: hashing is the function parameter `hash`. Salt and cost are not modelled, nor is a salted hash that differs on each call. The unused `genSalt` call is not modelled.
- Randomness, `Date.now()` ids and the Discord bot call (axios) are parameters, as listed above. The bot's own code is not part of this model.
- Express routing, `res.status`, and the messages of the replies: each reply is a datatype constructor with its status code.
- Database failures other than the two modelled ones (an empty SET clause and a duplicate id): the "server error" replies for them are not reachable in the model.
- Concurrency: requests run one at a time. The race between `linkAccount`'s checks and its write is not modelled, and that is why `LinkAccountNeverFails` can hold.
- JSON `null` and non-string request values: a request field is either absent or a string.
- `createdAt` (`NOW()`) is not a column of the model, and neither is any other column of the schema besides those the core reads or writes. The schema file is not part of this model.
- Row order: every query, `getAll` included, is assumed to return rows in table order, although SQL without `ORDER BY` promises no order. The choice decides which row a `LIMIT 1`-style lookup finds first, including which holder of a colliding activation code `linkDiscord` redeems.
- The e-mail regular expression of the registration screen is the parameter `validEmail`, which stands for the whole of `validateEmail`, lower-casing included. Its language is not modelled.
- `Alert.alert` and the screens' rendering, navigation and submission code are left out.
- The other screens, the mobile API client, `init-db.js` and `init-data.js` are left out.
- UserModel.LinkDiscordOnce: the source does not guarantee a single holder of an activation code, so the lemma requires one. Two random codes can collide.
- DiscordController.LinkAccountTwice: requires a single holder of the code, for the same reason.
- JsValues.Trim: states the properties the form checks need (no blank ends, empty exactly for blank input) rather than the full slice that `trim` returns.
- Views: `getUsers`, `getUserById` and `linkAccount` are modelled as written, keeping `activationCode`, `recoveryCode` and `recoveryCodeExpires` in their replies (`GetUsers` and `GetUserById` rebuild each row from the view and the hash alone). The corrected replies `PublicListing.PublicUsers` and `PublicListing.PublicUserById`, without the activation code and the recovery columns, are stated beside them; see Findings.
- Authorisation: every route of the user, auth and Discord routers except `GET /api/auth/me` is open, and there is no notion of a caller. So the model cannot say who should receive a code. `POST /api/users/:id/activation-code` (backend/routes/users.js:25-28) hands a fresh activation code for any inactive id to any caller, and `createUser` returns the new account's code to whoever created it. The corrected replies prove only that the two public read endpoints carry no code, not that a code reaches only its owner.

## Findings

| source | as written | input that shows it | evidently intended | confidence | as-written member | corrected member |
|---|---|---|---|---|---|---|
| backend/controllers/userController.js:5-20 | `GET /api/users` has no auth (backend/routes/users.js:5-8) and strips only the password hash, so each row's `recoveryCode` is in the reply | a linked account `alice`: `POST /api/auth/recover` with `{usernameOrEmail: "alice"}`, then `GET /api/users` shows her `recoveryCode`, then `POST /api/auth/reset-password` with `{usernameOrEmail: "alice", code: the listed code, newPassword: "x"}` answers "password updated" | the public listing leaves out the recovery code and its expiry, so issuing a code does not change what it shows | medium, not executed | PublicListing.ListingRevealsRecoveryCode | PublicListing.PublicListingHidesRecovery |
| backend/controllers/userController.js:23-37 | `GET /api/users/:id` has no auth (backend/routes/users.js:10-13) and strips only the password hash, so the row's `recoveryCode` is in the reply | as above, with `GET /api/users/` followed by alice's id in place of the listing | the public by-id reply leaves out the recovery code and its expiry, so issuing a code does not change what it shows | medium, not executed | PublicListing.ByIdRevealsRecoveryCode | PublicListing.PublicUserByIdHidesRecovery |
| backend/controllers/userController.js:5-20 | the same listing returns each inactive row's `activationCode`, and `POST /api/discord/link` (backend/routes/discord.js:5-8) has no auth either | an inactive account `bob`: `GET /api/users` shows his `activationCode`, then `POST /api/discord/link` with `{activationCode: the listed code, discordUser: {id: "999"}}` activates `bob` linked to Discord id `999` | the public listing leaves out the activation code, so reissuing a code does not change what it shows | medium, not executed | PublicListing.ListingRevealsActivationCode | PublicListing.PublicListingHidesActivation |
| backend/controllers/userController.js:23-37 | `GET /api/users/:id` returns the row's `activationCode` as well | as above, with `GET /api/users/` followed by bob's id in place of the listing | the public by-id reply leaves out the activation code, so reissuing a code does not change what it shows | medium, not executed | PublicListing.ByIdRevealsActivationCode | PublicListing.PublicUserByIdHidesActivation |

=== FILE: auth_controller.dfy ===
/**
 Authentication and password recovery: login, the authenticated profile,
 and the three recovery endpoints (issue a code, check it, reset with it).
 bcrypt is the parameter `hash`: `compare(p, h)` holds when `hash(p) == h`.
 The clock is the parameter `now` (milliseconds), the random draw for the
 recovery code is `draw`, and the outcome of the call to the Discord bot
 is `delivered`.
 */
module AuthController {

  import opened JsValues
  import opened UserModel
  import opened Views
  import opened AccountInvariants
  import Codes

  // ---------------------------------------------------------------------------
  // Login

  /** The signed session token, opaque here: its payload carries the account id only. */
  datatype Token = Token(userId: Id)

  /** The `user` object of a successful login reply. */
  datatype SessionUser = SessionUser(
    id: Id,
    username: string,
    discordUsername: Option<string>,
    discordAvatar: Option<string>,
    isActive: bool)

  datatype LoginReply =
    | MissingCredentials                                       // 400
    | InvalidCredentials                                       // 400, one message for every mismatch
    | NotActivated(activationCode: Option<string>, userId: Id) // 403, with what activation needs
    | LoggedIn(token: Token, user: SessionUser)                // 200
  {
    function Status(): int {
      match this
      case MissingCredentials => 400
      case InvalidCredentials => 400
      case NotActivated(_, _) => 403
      case LoggedIn(_, _) => 200
    }
  }

  /** `login`. */
  function Login(t: Table, hash: string -> string, username: Option<string>, password: Option<string>): (r: LoginReply)
    ensures r.MissingCredentials? <==> !Truthy(username) || !Truthy(password)
    ensures r.NotActivated? || r.LoggedIn? ==>
      var u := FindOne(t, NoFilter.(username := username));
      && u.Some? && hash(password.value) == u.value.password
      && (r.NotActivated? <==> !u.value.isActive)
    ensures r.NotActivated? ==>
      var u := FindOne(t, NoFilter.(username := username)).value;
      r.activationCode == u.activationCode && r.userId == u.id
    ensures r.LoggedIn? ==>
      var u := FindOne(t, NoFilter.(username := username)).value;
      && r.token == Token(u.id)
      && r.user == SessionUser(u.id, u.username, u.discordUsername, u.discordAvatar, true)
  {
    if !Truthy(username) || !Truthy(password) then MissingCredentials
    else
      match FindOne(t, NoFilter.(username := username))
      case None => InvalidCredentials
      case Some(u) =>
        if hash(password.value) != u.password then InvalidCredentials
        else if !u.isActive then NotActivated(u.activationCode, u.id)
        else LoggedIn(Token(u.id), SessionUser(u.id, u.username, u.discordUsername, u.discordAvatar, u.isActive))
  }

  /** A row whose username equals `name` up to case and whose hash matches `password`. */
  predicate Credentials(a: Account, hash: string -> string, name: string, password: string) {
    Lower(a.username) == Lower(name) && hash(password) == a.password
  }

  /**
   Login against a declarative reference on a well-formed table: an
   unknown name and a wrong password give the same reply; 403 exactly for
   matching credentials of an inactive row, carrying that row's code and
   id; success exactly for matching credentials of an active row.
   */
  lemma LoginReference(t: Table, hash: string -> string, name: string, password: string)
    requires Wf(t)
    requires name != "" && password != ""
    ensures Login(t, hash, Some(name), Some(password)) == InvalidCredentials <==>
      forall j | 0 <= j < |t| :: !Credentials(t[j], hash, name, password)
    ensures Login(t, hash, Some(name), Some(password)).LoggedIn? <==>
      exists j | 0 <= j < |t| :: Credentials(t[j], hash, name, password) && t[j].isActive
    ensures forall j | 0 <= j < |t| && Credentials(t[j], hash, name, password) && !t[j].isActive ::
      Login(t, hash, Some(name), Some(password)) == NotActivated(t[j].activationCode, t[j].id)
  {
    var f := NoFilter.(username := Some(name));
    assert FilterKey(f) == Some(ByUsername(name));
    forall j | 0 <= j < |t| && Lower(t[j].username) == Lower(name)
      ensures FindOne(t, f) == Some(t[j])
    {
      var m := FirstMatch(t, ByUsername(name));
      assert m.Some?;
      assert m.value == j;
    }
  }

  /** The token of a successful login names the row that logged in, and that row is active and linked. */
  lemma LoginTokenBindsAccount(t: Table, hash: string -> string, username: Option<string>, password: Option<string>)
    requires Wf(t)
    requires Login(t, hash, username, password).LoggedIn?
    ensures var id := Login(t, hash, username, password).token.userId;
      FindById(t, id).Some? && FindById(t, id).value.isActive
      && FindById(t, id).value.discordId.Some? && FindById(t, id).value.activationCode.None?
  {
    var u := FindOne(t, NoFilter.(username := username)).value;
    var i :| 0 <= i < |t| && t[i] == u;
    FindByIdUnique(t, i);
  }

  /** `getMe`: the authenticated row without its password, or None (404). */
  function GetMe(t: Table, token: Token): (r: Option<UserView>)
    ensures r.Some? <==> exists j | 0 <= j < |t| :: t[j].id == token.userId
    ensures r.Some? ==> exists j | 0 <= j < |t| :: t[j].id == token.userId && WithPassword(r.value, t[j].password) == t[j]
  {
    match FindById(t, token.userId)
    case None => None
    case Some(u) =>
      ViewLosesOnlyPassword(u, u);
      Some(WithoutPassword(u))
  }

  // ---------------------------------------------------------------------------
  // Recovery

  /** Fifteen minutes, in milliseconds. */
  const RecoveryWindow: int := 15 * 60 * 1000

  datatype RecoveryReply =
    | MissingIdentifier  // 400: no username or email given
    | AccountNotFound    // 404
    | DiscordNotLinked   // 400: no channel to deliver the code
    | CodeSent           // 200
    | DeliveryFailed     // 500: the bot call failed; the code is stored anyway
    | InvalidCode        // 400: wrong or expired code
    | CodeValid(userId: Id)
    | PasswordUpdated
    | ServerError        // 500: the handler threw
  {
    function Status(): int {
      match this
      case MissingIdentifier => 400
      case AccountNotFound => 404
      case DiscordNotLinked => 400
      case CodeSent => 200
      case DeliveryFailed => 500
      case InvalidCode => 400
      case CodeValid(_) => 200
      case PasswordUpdated => 200
      case ServerError => 500
    }
  }

  /** The account named by `usernameOrEmail`: by username first, then by email. */
  function Resolve(t: Table, usernameOrEmail: Option<string>): (r: Option<Account>)
    ensures r.Some? ==> r.value in t
  {
    match FindOne(t, NoFilter.(username := usernameOrEmail))
    case Some(u) => Some(u)
    case None => FindOne(t, NoFilter.(email := usernameOrEmail))
  }

  /**
   Resolution order: a row whose username matches up to case wins over any
   email match; the email is consulted only when no username matches;
   nothing matches means None.
   */
  lemma ResolveOrder(t: Table, q: string)
    requires q != ""
    ensures (exists j | 0 <= j < |t| :: Lower(t[j].username) == Lower(q)) ==>
      Resolve(t, Some(q)).Some? && Lower(Resolve(t, Some(q)).value.username) == Lower(q)
    ensures (forall j | 0 <= j < |t| :: Lower(t[j].username) != Lower(q)) ==>
      Resolve(t, Some(q)) == Select(t, ByEmail(q))
    ensures Resolve(t, Some(q)).None? <==>
      forall j | 0 <= j < |t| :: Lower(t[j].username) != Lower(q) && t[j].email != Some(q)
  {
    assert FilterKey(NoFilter.(username := Some(q))) == Some(ByUsername(q));
    assert FilterKey(NoFilter.(email := Some(q))) == Some(ByEmail(q));
  }

  /**
   `recoverPassword`. On success a six-digit code and an expiry fifteen
   minutes after `now` are stored on the resolved row before delivery is
   attempted.
   */
  function RecoverPassword(t: Table, usernameOrEmail: Option<string>, draw: nat, now: int, delivered: bool): (r: Step<RecoveryReply>)
    requires draw < Codes.RecoverySpan
    ensures r.out in {MissingIdentifier, AccountNotFound, DiscordNotLinked, CodeSent, DeliveryFailed}
    ensures r.out == MissingIdentifier <==> !Truthy(usernameOrEmail)
    ensures r.out == AccountNotFound <==> Truthy(usernameOrEmail) && Resolve(t, usernameOrEmail).None?
    ensures r.out == DiscordNotLinked <==>
      Truthy(usernameOrEmail) && Resolve(t, usernameOrEmail).Some? && !Truthy(Resolve(t, usernameOrEmail).value.discordId)
    ensures r.out == CodeSent ==> delivered
    ensures r.out == DeliveryFailed ==> !delivered
    ensures r.out !in {CodeSent, DeliveryFailed} ==> r.table == t
    ensures r.out in {CodeSent, DeliveryFailed} ==>
      var u := Resolve(t, usernameOrEmail).value;
      var code := Codes.RecoveryCode(draw);
      && r.table == PatchRows(t, u.id, RecoveryPatch(code, now + RecoveryWindow))
      && |code| == 6 && 100000 <= Codes.DecimalValue(code) <= 999999
  {
    if !Truthy(usernameOrEmail) then Step(MissingIdentifier, t)
    else
      match Resolve(t, usernameOrEmail)
      case None => Step(AccountNotFound, t)
      case Some(u) =>
        if !Truthy(u.discordId) then Step(DiscordNotLinked, t)
        else
          var code := Codes.RecoveryCode(draw);
          var s := SetRecoveryCode(t, u.id, code, now + RecoveryWindow);
          Step(if delivered then CodeSent else DeliveryFailed, s.table)
  }

  /** A failed delivery leaves exactly the stored code and expiry a successful one does. */
  lemma DeliveryFailureKeepsCode(t: Table, q: Option<string>, draw: nat, now: int)
    requires draw < Codes.RecoverySpan
    ensures RecoverPassword(t, q, draw, now, false).table == RecoverPassword(t, q, draw, now, true).table
    ensures RecoverPassword(t, q, draw, now, true).out == CodeSent <==>
            RecoverPassword(t, q, draw, now, false).out == DeliveryFailed
  {
  }

  /** `validateRecoveryCode` (endpoint). A pure read. */
  function ValidateRecovery(t: Table, usernameOrEmail: Option<string>, code: Option<string>, now: int): (r: RecoveryReply)
    ensures r in {AccountNotFound, InvalidCode} || r.CodeValid?
    ensures r == AccountNotFound <==> Resolve(t, usernameOrEmail).None?
    ensures r.CodeValid? ==>
      && Resolve(t, usernameOrEmail).Some?
      && r.userId == Resolve(t, usernameOrEmail).value.id
      && ValidateRecoveryCode(t, r.userId, code, now)
    ensures r == InvalidCode ==>
      !ValidateRecoveryCode(t, Resolve(t, usernameOrEmail).value.id, code, now)
  {
    match Resolve(t, usernameOrEmail)
    case None => AccountNotFound
    case Some(u) =>
      if !ValidateRecoveryCode(t, u.id, code, now) then InvalidCode
      else CodeValid(u.id)
  }

  /** The columns `resetPassword` writes: the new hash, and both recovery columns cleared. */
  function ResetPatch(passwordHash: string): Patch {
    NoChange.(password := Some(passwordHash), recoveryCode := Some(None), recoveryCodeExpires := Some(None))
  }

  /**
   `resetPassword`. An unknown account gives 404 and an invalid or expired
   code 400, both leaving the table alone; a missing new password makes
   bcrypt throw (500, no change); otherwise the hash is replaced and the
   recovery columns cleared.
   */
  function ResetPassword(t: Table, hash: string -> string, usernameOrEmail: Option<string>,
                         code: Option<string>, newPassword: Option<string>, now: int): (r: Step<RecoveryReply>)
    ensures r.out in {AccountNotFound, InvalidCode, ServerError, PasswordUpdated}
    ensures r.out == AccountNotFound <==> Resolve(t, usernameOrEmail).None?
    ensures r.out == InvalidCode <==>
      Resolve(t, usernameOrEmail).Some? && !ValidateRecoveryCode(t, Resolve(t, usernameOrEmail).value.id, code, now)
    ensures r.out == ServerError <==>
      Resolve(t, usernameOrEmail).Some? && ValidateRecoveryCode(t, Resolve(t, usernameOrEmail).value.id, code, now)
      && newPassword.None?
    ensures r.out != PasswordUpdated ==> r.table == t
    ensures r.out == PasswordUpdated ==>
      r.table == PatchRows(t, Resolve(t, usernameOrEmail).value.id, ResetPatch(hash(newPassword.value)))
  {
    match Resolve(t, usernameOrEmail)
    case None => Step(AccountNotFound, t)
    case Some(u) =>
      if !ValidateRecoveryCode(t, u.id, code, now) then Step(InvalidCode, t)
      else if newPassword.None? then Step(ServerError, t)
      else
        assert FindById(t, u.id).Some?;
        var s := Update(t, u.id, ResetPatch(hash(newPassword.value)));
        Step(PasswordUpdated, s.table)
  }

  /** The position of the row `Resolve` returns, in terms of the two first-match lookups. */
  predicate ResolvesAt(t: Table, q: string, k: nat) {
    || FirstMatch(t, ByUsername(q)) == Some(k)
    || (FirstMatch(t, ByUsername(q)).None? && FirstMatch(t, ByEmail(q)) == Some(k))
  }

  lemma ResolveIndex(t: Table, q: Option<string>) returns (k: nat)
    requires Resolve(t, q).Some?
    ensures Truthy(q) && k < |t| && Resolve(t, q) == Some(t[k]) && ResolvesAt(t, q.value, k)
  {
    assert Truthy(q);
    assert FilterKey(NoFilter.(username := q)) == Some(ByUsername(q.value));
    assert FilterKey(NoFilter.(email := q)) == Some(ByEmail(q.value));
    if FirstMatch(t, ByUsername(q.value)).Some? {
      k := FirstMatch(t, ByUsername(q.value)).value;
    } else {
      k := FirstMatch(t, ByEmail(q.value)).value;
    }
  }

  lemma ResolveByIndex(t: Table, q: Option<string>, k: nat)
    requires Truthy(q) && k < |t| && ResolvesAt(t, q.value, k)
    ensures Resolve(t, q) == Some(t[k])
  {
    assert FilterKey(NoFilter.(username := q)) == Some(ByUsername(q.value));
    assert FilterKey(NoFilter.(email := q)) == Some(ByEmail(q.value));
  }

  /** Rewriting the resolved row without touching id, username or email keeps it resolved. */
  lemma ResolveAfterRewrite(t: Table, q: Option<string>, i: nat, b: Account)
    requires IdsUnique(t)
    requires i < |t| && Resolve(t, q) == Some(t[i])
    requires b.id == t[i].id && b.username == t[i].username && b.email == t[i].email
    ensures Resolve(t[i := b], q) == Some(b)
  {
    var k := ResolveIndex(t, q);
    assert t[k].id == t[i].id;
    assert k == i;
    var t' := t[i := b];
    assert forall j | 0 <= j < |t| ::
      t'[j].id == t[j].id && t'[j].username == t[j].username && t'[j].email == t[j].email;
    FirstMatchSameKeys(t, t', ByUsername(q.value));
    FirstMatchSameKeys(t, t', ByEmail(q.value));
    ResolveByIndex(t', q, i);
  }

  /** On a well-formed table a successful reset rewrites exactly the resolved row. */
  lemma ResetRow(t: Table, hash: string -> string, q: Option<string>,
                 code: Option<string>, newPassword: Option<string>, now: int) returns (i: nat)
    requires Wf(t)
    requires ResetPassword(t, hash, q, code, newPassword, now).out == PasswordUpdated
    ensures i < |t| && Resolve(t, q) == Some(t[i]) && newPassword.Some?
    ensures ResetPassword(t, hash, q, code, newPassword, now).table
            == t[i := Apply(t[i], ResetPatch(hash(newPassword.value)))]
  {
    i := ResolveIndex(t, q);
    PatchRowsUnique(t, i, ResetPatch(hash(newPassword.value)));
  }

  /**
   A reset consumes the code: afterwards the account resolves to the same
   row, which holds the new hash and no recovery data, and checking the
   same code (at any time) is refused.
   */
  lemma ResetConsumesCode(t: Table, hash: string -> string, q: Option<string>,
                          code: Option<string>, newPassword: Option<string>, now: int, later: int)
    requires Wf(t)
    requires ResetPassword(t, hash, q, code, newPassword, now).out == PasswordUpdated
    ensures var t' := ResetPassword(t, hash, q, code, newPassword, now).table;
      var id := Resolve(t, q).value.id;
      && Resolve(t', q).Some? && Resolve(t', q).value.id == id
      && FindById(t', id).value.password == hash(newPassword.value)
      && FindById(t', id).value.recoveryCode.None?
      && FindById(t', id).value.recoveryCodeExpires.None?
      && ValidateRecovery(t', q, code, later) == InvalidCode
  {
    var i := ResetRow(t, hash, q, code, newPassword, now);
    var b := Apply(t[i], ResetPatch(hash(newPassword.value)));
    var t' := t[i := b];
    ResolveAfterRewrite(t, q, i, b);
    FindByIdUnique(t', i);
    ValidateRecoveryCodeAt(t', b.id, code, later);
  }

  /** On a well-formed table a successful issue rewrites exactly the resolved row. */
  lemma IssuedRow(t: Table, q: Option<string>, draw: nat, now: int, delivered: bool) returns (i: nat)
    requires Wf(t)
    requires draw < Codes.RecoverySpan
    requires RecoverPassword(t, q, draw, now, delivered).out in {CodeSent, DeliveryFailed}
    ensures i < |t| && Resolve(t, q) == Some(t[i])
    ensures RecoverPassword(t, q, draw, now, delivered).table
            == t[i := Apply(t[i], RecoveryPatch(Codes.RecoveryCode(draw), now + RecoveryWindow))]
  {
    i := ResolveIndex(t, q);
    PatchRowsUnique(t, i, RecoveryPatch(Codes.RecoveryCode(draw), now + RecoveryWindow));
  }

  /** Issuing a recovery code on a well-formed table leaves it well formed. */
  lemma RecoverPasswordKeepsWf(t: Table, q: Option<string>, draw: nat, now: int, delivered: bool)
    requires Wf(t)
    requires draw < Codes.RecoverySpan
    ensures Wf(RecoverPassword(t, q, draw, now, delivered).table)
  {
    if RecoverPassword(t, q, draw, now, delivered).out in {CodeSent, DeliveryFailed} {
      var i := IssuedRow(t, q, draw, now, delivered);
      SetRowKeepsWf(t, i, Apply(t[i], RecoveryPatch(Codes.RecoveryCode(draw), now + RecoveryWindow)));
    }
  }

  /** A password reset on a well-formed table leaves it well formed. */
  lemma ResetPasswordKeepsWf(t: Table, hash: string -> string, q: Option<string>,
                             code: Option<string>, newPassword: Option<string>, now: int)
    requires Wf(t)
    ensures Wf(ResetPassword(t, hash, q, code, newPassword, now).table)
  {
    if ResetPassword(t, hash, q, code, newPassword, now).out == PasswordUpdated {
      var i := ResetRow(t, hash, q, code, newPassword, now);
      SetRowKeepsWf(t, i, Apply(t[i], ResetPatch(hash(newPassword.value))));
    }
  }

  /**
   After the resolved row is rewritten to hold code `c` expiring at `e`
   (id, username and email kept), the endpoint accepts `c` up to `e`.
   */
  lemma ValidateRewrittenRow(t: Table, q: Option<string>, i: nat, b: Account, c: string, e: int, at: int)
    requires IdsUnique(t)
    requires i < |t| && Resolve(t, q) == Some(t[i])
    requires b.id == t[i].id && b.username == t[i].username && b.email == t[i].email
    requires b.recoveryCode == Some(c) && ExpiryMillis(b) == e
    ensures ValidateRecovery(t[i := b], q, Some(c), at).CodeValid? <==> at <= e
  {
    var t' := t[i := b];
    ResolveAfterRewrite(t, q, i, b);
    FindByIdUnique(t', i);
    ValidateRecoveryCodeAt(t', b.id, Some(c), at);
  }

  /**
   An issued code is accepted until its expiry and refused after it: right
   after a successful issue, checking the stored code at any instant up to
   `now + RecoveryWindow` succeeds and any later instant fails.
   */
  lemma IssuedCodeWindow(t: Table, q: Option<string>, draw: nat, now: int, delivered: bool, at: int)
    requires Wf(t)
    requires draw < Codes.RecoverySpan
    requires RecoverPassword(t, q, draw, now, delivered).out in {CodeSent, DeliveryFailed}
    ensures var t' := RecoverPassword(t, q, draw, now, delivered).table;
      ValidateRecovery(t', q, Some(Codes.RecoveryCode(draw)), at).CodeValid? <==> at <= now + RecoveryWindow
  {
    var i := IssuedRow(t, q, draw, now, delivered);
    var b := Apply(t[i], RecoveryPatch(Codes.RecoveryCode(draw), now + RecoveryWindow));
    ValidateRewrittenRow(t, q, i, b, Codes.RecoveryCode(draw), now + RecoveryWindow, at);
  }
}

=== FILE: codes.dfy ===
/**
 The two kinds of code the backend issues, as text:
 - activation codes: four random bytes rendered as upper-case hexadecimal
   (`randomBytes(4).toString('hex').toUpperCase()`), eight characters;
 - recovery codes: a number in [100000, 999999] rendered in decimal
   (`Math.floor(100000 + Math.random() * 900000).toString()`), six digits.
 Each rendering has a decoder that inverts it.
 */
module Codes {

  import opened JsValues

  newtype byte = x: int | 0 <= x < 256

  /** A character of `0-9A-F`. */
  predicate IsHexDigit(c: char) {
    '0' <= c <= '9' || 'A' <= c <= 'F'
  }

  /** A character of `0-9`. */
  predicate IsDecimalDigit(c: char) {
    '0' <= c <= '9'
  }

  // ---------------------------------------------------------------------------
  // Upper-case hexadecimal

  function HexChar(n: nat): (c: char)
    requires n < 16
    ensures IsHexDigit(c)
  {
    if n < 10 then (48 + n) as char else (55 + n) as char
  }

  /** Value of one upper-case hex digit, or None for any other character. */
  function HexValue(c: char): (r: Option<nat>)
    ensures r.Some? <==> IsHexDigit(c)
    ensures r.Some? ==> r.value < 16 && HexChar(r.value) == c
  {
    if '0' <= c <= '9' then Some((c - '0') as nat)
    else if 'A' <= c <= 'F' then Some((c - 'A') as nat + 10)
    else None
  }

  /** `Buffer.toString('hex')` followed by `toUpperCase()`: high nibble first. */
  function HexUpper(bytes: seq<byte>): (s: string)
    ensures |s| == 2 * |bytes|
    ensures forall k | 0 <= k < |s| :: IsHexDigit(s[k])
  {
    if |bytes| == 0 then ""
    else
      var b := bytes[0] as nat;
      [HexChar(b / 16), HexChar(b % 16)] + HexUpper(bytes[1..])
  }

  /** Reads upper-case hexadecimal back into bytes; None on odd length or a non-digit. */
  function HexDecode(s: string): (r: Option<seq<byte>>)
    ensures r.Some? ==> 2 * |r.value| == |s|
  {
    if |s| == 0 then Some([])
    else if |s| == 1 then None
    else
      var hi, lo, rest := HexValue(s[0]), HexValue(s[1]), HexDecode(s[2..]);
      if hi.None? || lo.None? || rest.None? then None
      else Some([(hi.value * 16 + lo.value) as byte] + rest.value)
  }

  /** A byte is recovered from its two nibbles. */
  lemma NibblesRoundTrip(x: byte)
    ensures HexValue(HexChar(x as nat / 16)).Some? && HexValue(HexChar(x as nat % 16)).Some?
    ensures (HexValue(HexChar(x as nat / 16)).value * 16 + HexValue(HexChar(x as nat % 16)).value) as byte == x
  {
  }

  /** One step of decoding: two digits in front of a decodable rest. */
  lemma HexDecodeCons(hi: char, lo: char, rest: string, r: seq<byte>)
    requires HexValue(hi).Some? && HexValue(lo).Some? && HexDecode(rest) == Some(r)
    ensures HexDecode([hi, lo] + rest) == Some([(HexValue(hi).value * 16 + HexValue(lo).value) as byte] + r)
  {
    var s := [hi, lo] + rest;
    assert s[0] == hi && s[1] == lo && s[2..] == rest;
  }

  /** Decoding inverts the rendering, so distinct byte strings give distinct codes. */
  lemma {:induction false} HexRoundTrip(bytes: seq<byte>)
    ensures HexDecode(HexUpper(bytes)) == Some(bytes)
  {
    if |bytes| > 0 {
      var b := bytes[0] as nat;
      var hi, lo := HexChar(b / 16), HexChar(b % 16);
      var rest := HexUpper(bytes[1..]);
      assert HexUpper(bytes) == [hi, lo] + rest;
      HexRoundTrip(bytes[1..]);
      NibblesRoundTrip(bytes[0]);
      HexDecodeCons(hi, lo, rest, bytes[1..]);
      assert [bytes[0]] + bytes[1..] == bytes;
    }
  }

  lemma HexInjective(a: seq<byte>, b: seq<byte>)
    ensures HexUpper(a) == HexUpper(b) ==> a == b
  {
    HexRoundTrip(a);
    HexRoundTrip(b);
  }

  /** An activation code: eight upper-case hex characters drawn from four random bytes. */
  function ActivationCode(random: seq<byte>): (code: string)
    requires |random| == 4
    ensures |code| == 8
    ensures forall k | 0 <= k < |code| :: IsHexDigit(code[k])
    ensures HexDecode(code) == Some(random)
  {
    HexRoundTrip(random);
    HexUpper(random)
  }

  // ---------------------------------------------------------------------------
  // Decimal

  function Pow10(k: nat): (p: nat)
    ensures p >= 1
  {
    if k == 0 then 1 else 10 * Pow10(k - 1)
  }

  function DigitChar(d: nat): (c: char)
    requires d < 10
    ensures IsDecimalDigit(c)
  {
    (48 + d) as char
  }

  /** `Number.prototype.toString()` for a non-negative integer: no leading zeros. */
  function Decimal(n: nat): (s: string)
    ensures |s| >= 1
    ensures forall k | 0 <= k < |s| :: IsDecimalDigit(s[k])
    ensures n > 0 ==> s[0] != '0'
  {
    if n < 10 then [DigitChar(n)] else Decimal(n / 10) + [DigitChar(n % 10)]
  }

  /** The number a string of decimal digits denotes. */
  function DecimalValue(s: string): nat
    requires forall k | 0 <= k < |s| :: IsDecimalDigit(s[k])
  {
    if |s| == 0 then 0
    else
      assert IsDecimalDigit(s[|s| - 1]);
      DecimalValue(s[..|s| - 1]) * 10 + (s[|s| - 1] - '0') as nat
  }

  lemma {:induction false} DecimalRoundTrip(n: nat)
    ensures DecimalValue(Decimal(n)) == n
  {
    var s := Decimal(n);
    if n >= 10 {
      assert s[..|s| - 1] == Decimal(n / 10);
      DecimalRoundTrip(n / 10);
    }
  }

  /** A number with exactly `k` digits renders as exactly `k` characters. */
  lemma {:induction false} DecimalLength(n: nat, k: nat)
    requires 1 <= k
    requires (if k == 1 then 0 else Pow10(k - 1)) <= n < Pow10(k)
    ensures |Decimal(n)| == k
  {
    if k > 1 {
      if k == 2 {
        assert n / 10 < 10;
      } else {
        assert Pow10(k - 2) <= n / 10;
      }
      DecimalLength(n / 10, k - 1);
    }
  }

  const RecoveryLow: nat := 100000
  const RecoverySpan: nat := 900000

  /**
   A recovery code; `draw` stands for `Math.floor(Math.random() * 900000)`,
   an integer in [0, 900000).
   */
  function RecoveryCode(draw: nat): (code: string)
    requires draw < RecoverySpan
    ensures |code| == 6
    ensures forall k | 0 <= k < |code| :: IsDecimalDigit(code[k])
    ensures 100000 <= DecimalValue(code) <= 999999
    ensures DecimalValue(code) == RecoveryLow + draw
  {
    assert Pow10(5) == 100000 && Pow10(6) == 1000000;
    DecimalLength(RecoveryLow + draw, 6);
    DecimalRoundTrip(RecoveryLow + draw);
    Decimal(RecoveryLow + draw)
  }
}

=== FILE: create_user_screen.dfy ===
/**
 The client-side check of the "create user" form: name, e-mail, password,
 in that order, the first failing check deciding. The e-mail must match
 `^[^\s@]+@[^\s@]+\.[^\s@]+$`.
 */
module CreateUserScreen {

  import opened JsValues

  datatype CreateUserForm = CreateUserForm(name: string, email: string, password: string)

  datatype Verdict =
    | Accepted
    | NameRequired      // blank after trimming
    | EmailRequired     // blank after trimming
    | EmailMalformed    // not of the shape local@domain.tld
    | PasswordInvalid   // blank after trimming, or fewer than 6 code units

  /** A character of the class `[^\s@]`. */
  predicate Plain(c: char) {
    !IsSpace(c) && c != '@'
  }

  /** A match of `[^\s@]+`. */
  predicate Segment(x: string) {
    |x| > 0 && forall k | 0 <= k < |x| :: Plain(x[k])
  }

  /** `s` reads as A@B.C with `@` at `i`, the `.` at `j`, and A, B, C matching `[^\s@]+`. */
  predicate SplitAt(s: string, i: int, j: int) {
    && 0 <= i < j < |s|
    && s[i] == '@' && s[j] == '.'
    && Segment(s[..i]) && Segment(s[i + 1..j]) && Segment(s[j + 1..])
  }

  /** The language of `^[^\s@]+@[^\s@]+\.[^\s@]+$`. */
  predicate EmailPattern(s: string) {
    exists i, j | 0 <= i < j < |s| :: SplitAt(s, i, j)
  }

  /** Position of the first occurrence of `c` in `s`. */
  function IndexOf(s: string, c: char): (r: Option<nat>)
    ensures r.Some? ==> r.value < |s| && s[r.value] == c && c !in s[..r.value]
    ensures r.None? ==> c !in s
  {
    if |s| == 0 then None
    else if s[0] == c then Some(0)
    else
      match IndexOf(s[1..], c)
      case None => None
      case Some(k) =>
        assert s[..k + 1] == [s[0]] + s[1..][..k];
        Some(k + 1)
  }

  /**
   A direct check of the pattern: up to the first `@` a plain segment; after
   it a plain segment holding a `.` that is neither its first nor its last
   character.
   */
  predicate EmailShape(s: string) {
    match IndexOf(s, '@')
    case None => false
    case Some(i) =>
      var d := s[i + 1..];
      Segment(s[..i]) && Segment(d) && |d| >= 3 && '.' in d[1..|d| - 1]
  }

  /** The direct check accepts exactly the strings of the pattern. */
  lemma EmailShapeIff(s: string)
    ensures EmailShape(s) <==> EmailPattern(s)
  {
    if EmailShape(s) {
      ShapeGivesPattern(s);
    }
    if EmailPattern(s) {
      var i, j :| 0 <= i < j < |s| && SplitAt(s, i, j);
      PatternGivesShape(s, i, j);
    }
  }

  lemma ShapeGivesPattern(s: string)
    requires EmailShape(s)
    ensures EmailPattern(s)
  {
    var i := IndexOf(s, '@').value;
    var d := s[i + 1..];
    var m :| 0 <= m < |d[1..|d| - 1]| && d[1..|d| - 1][m] == '.';
    var j := i + 2 + m;
    assert s[j] == '.';
    assert s[i + 1..j] == d[..m + 1];
    assert s[j + 1..] == d[m + 2..];
    assert Segment(s[i + 1..j]);
    assert Segment(s[j + 1..]);
    assert SplitAt(s, i, j);
  }

  lemma PatternGivesShape(s: string, i: int, j: int)
    requires SplitAt(s, i, j)
    ensures EmailShape(s)
  {
    assert forall k | 0 <= k < i :: s[k] == s[..i][k];
    assert '@' !in s[..i];
    assert IndexOf(s, '@') == Some(i);
    var d := s[i + 1..];
    assert d == s[i + 1..j] + [s[j]] + s[j + 1..];
    assert Segment(d);
    assert d[1..|d| - 1][j - i - 2] == '.';
  }

  const MinPasswordLength: nat := 6

  /** `validateForm`. */
  function ValidateForm(f: CreateUserForm): (v: Verdict)
    ensures v == NameRequired <==> AllSpace(f.name)
    ensures v == EmailRequired <==> !AllSpace(f.name) && AllSpace(f.email)
    ensures v == EmailMalformed <==> !AllSpace(f.name) && !AllSpace(f.email) && !EmailPattern(f.email)
    ensures v == PasswordInvalid <==>
      !AllSpace(f.name) && EmailPattern(f.email)
      && (AllSpace(f.password) || Length(f.password) < MinPasswordLength)
    ensures v == Accepted <==>
      !AllSpace(f.name) && EmailPattern(f.email)
      && !AllSpace(f.password) && Length(f.password) >= MinPasswordLength
  {
    TrimEmptyIff(f.name);
    TrimEmptyIff(f.email);
    TrimEmptyIff(f.password);
    EmailShapeIff(f.email);
    if Trim(f.name) == "" then NameRequired
    else if Trim(f.email) == "" then EmailRequired
    else if !EmailShape(f.email) then EmailMalformed
    else if Trim(f.password) == "" || Length(f.password) < MinPasswordLength then PasswordInvalid
    else Accepted
  }

  /**
   The pattern runs on the untrimmed address, so surrounding blanks are
   refused; and six blanks pass the length test but not the blank test.
   */
  lemma UntrimmedChecks(f: CreateUserForm)
    requires !AllSpace(f.name)
    ensures |f.email| > 0 && IsSpace(f.email[0]) ==> ValidateForm(f) in {EmailRequired, EmailMalformed}
    ensures EmailPattern(f.email) && |f.password| >= 6 && AllSpace(f.password) ==> ValidateForm(f) == PasswordInvalid
  {
    if |f.email| > 0 && IsSpace(f.email[0]) {
      forall i, j | 0 <= i < j < |f.email|
        ensures !SplitAt(f.email, i, j)
      {
        if 0 < i {
          assert f.email[..i][0] == f.email[0];
        }
      }
    }
  }
}

=== FILE: discord_controller.dfy ===
/**
 The link endpoint the Discord bot calls: redeem an activation code
 together with a Discord identity.
 */
module DiscordController {

  import opened JsValues
  import opened UserModel
  import opened Views
  import opened AccountInvariants

  datatype LinkReply =
    | IncompleteData        // 400: code, identity or identity id missing
    | CodeNotFound          // 404: no row holds the code (invalid or already used)
    | DiscordInUse          // 409: another account holds this Discord id
    | LinkFailed            // 500: linkDiscord gave null
    | Linked(user: UserView)
  {
    function Status(): int {
      match this
      case IncompleteData => 400
      case CodeNotFound => 404
      case DiscordInUse => 409
      case LinkFailed => 500
      case Linked(_) => 200
    }
  }

  /** The request body is complete: a truthy code and an identity with a truthy id. */
  predicate Complete(code: Option<string>, discordUser: Option<DiscordData>) {
    Truthy(code) && discordUser.Some? && Truthy(discordUser.value.id)
  }

  /** `linkAccount`. */
  function LinkAccount(t: Table, code: Option<string>, discordUser: Option<DiscordData>): (r: Step<LinkReply>)
    ensures r.out.IncompleteData? <==> !Complete(code, discordUser)
    ensures r.out.CodeNotFound? <==>
      Complete(code, discordUser) && forall j | 0 <= j < |t| :: t[j].activationCode != code
    ensures !r.out.Linked? ==> r.table == t
    ensures r.out.Linked? ==>
      && r.out.user.isActive && r.out.user.activationCode.None?
      && r.out.user.discordId == discordUser.value.id
      && r.out.user.discordUsername == discordUser.value.username
      && r.out.user.discordAvatar == discordUser.value.avatar
    ensures r.out.Linked? ==>
      var holder := Select(t, ByActivationCode(code.value)).value;
      r.out.user == WithoutPassword(Apply(FindById(t, holder.id).value, LinkPatch(discordUser.value)))
  {
    if !Complete(code, discordUser) then Step(IncompleteData, t)
    else
      match FindOne(t, NoFilter.(activationCode := code))
      case None => Step(CodeNotFound, t)
      case Some(u) =>
        var d := discordUser.value;
        var existing := FindOne(t, NoFilter.(discordId := d.id));
        if existing.Some? && existing.value.id != u.id then Step(DiscordInUse, t)
        else
          var s := LinkDiscord(t, code.value, DiscordData(d.id, d.username, d.avatar));
          if s.out.value.None? then Step(LinkFailed, s.table)
          else
            LinkDiscordActivates(t, code.value, DiscordData(d.id, d.username, d.avatar));
            Step(Linked(WithoutPassword(s.out.value.value)), s.table)
  }

  /**
   In a sequential run the 500 branch is never taken: the row found by the
   code is found again by `linkDiscord`.
   */
  lemma LinkAccountNeverFails(t: Table, code: Option<string>, discordUser: Option<DiscordData>)
    ensures !LinkAccount(t, code, discordUser).out.LinkFailed?
  {
  }

  /** The two lookups of a complete request: the first holder of the code, and the first holder of the Discord id. */
  lemma LinkLookups(t: Table, code: Option<string>, discordUser: Option<DiscordData>)
    requires Complete(code, discordUser)
    ensures FindOne(t, NoFilter.(activationCode := code)) == Select(t, ByActivationCode(code.value))
    ensures FindOne(t, NoFilter.(discordId := discordUser.value.id)) == Select(t, ByDiscordId(discordUser.value.id.value))
  {
    assert FilterKey(NoFilter.(activationCode := code)) == Some(ByActivationCode(code.value));
    assert FilterKey(NoFilter.(discordId := discordUser.value.id)) == Some(ByDiscordId(discordUser.value.id.value));
  }

  /** The 409 branch in terms of the two lookups. */
  lemma InUseByLookups(t: Table, code: Option<string>, discordUser: Option<DiscordData>)
    requires Complete(code, discordUser)
    ensures var u := Select(t, ByActivationCode(code.value));
      var existing := Select(t, ByDiscordId(discordUser.value.id.value));
      LinkAccount(t, code, discordUser).out.DiscordInUse? <==>
        u.Some? && existing.Some? && existing.value.id != u.value.id
  {
    LinkLookups(t, code, discordUser);
  }

  /**
   Conflict detection on a table with unique Discord ids: 409 exactly when the request
   is complete, some row holds the code, and a row with a different id
   already holds the Discord id. Re-linking the holder's own id is allowed.
   */
  lemma LinkAccountConflictIff(t: Table, code: Option<string>, discordUser: Option<DiscordData>)
    requires DiscordIdsUnique(t)
    ensures LinkAccount(t, code, discordUser).out.DiscordInUse? <==>
      && Complete(code, discordUser)
      && (exists h | 0 <= h < |t| :: t[h].activationCode == code)
      && exists j | 0 <= j < |t| :: t[j].discordId == discordUser.value.id
           && t[j].id != FindOne(t, NoFilter.(activationCode := code)).value.id
  {
    if Complete(code, discordUser) {
      LinkLookups(t, code, discordUser);
      InUseByLookups(t, code, discordUser);
      var d := discordUser.value.id;
      if h :| 0 <= h < |t| && t[h].activationCode == code {
        assert Matches(t[h], ByActivationCode(code.value));
        var u := FindOne(t, NoFilter.(activationCode := code)).value;
        var existing := Select(t, ByDiscordId(d.value));
        if existing.Some? && existing.value.id != u.id {
          var j := FirstMatch(t, ByDiscordId(d.value)).value;
          assert t[j].discordId == d && t[j].id != u.id;
        }
        if j :| 0 <= j < |t| && t[j].discordId == d && t[j].id != u.id {
          DiscordHolderUnique(t, j);
          assert existing == Some(t[j]);
        }
      }
    }
  }

  /**
   The shape of a successful link: the first holder `i` of the code is the
   only row rewritten, with the link patch, and no other row holds the
   Discord id.
   */
  lemma LinkedShape(t: Table, code: Option<string>, discordUser: Option<DiscordData>) returns (i: nat)
    requires IdsUnique(t) && DiscordIdsUnique(t)
    requires LinkAccount(t, code, discordUser).out.Linked?
    ensures i < |t| && t[i].activationCode == code
    ensures LinkAccount(t, code, discordUser).table == t[i := Apply(t[i], LinkPatch(discordUser.value))]
    ensures forall j | 0 <= j < |t| && j != i :: t[j].discordId != discordUser.value.id
  {
    var d := discordUser.value;
    i := FirstMatch(t, ByActivationCode(code.value)).value;
    FindByIdUnique(t, i);
    PatchRowsUnique(t, i, LinkPatch(d));
    forall j | 0 <= j < |t| && j != i
      ensures t[j].discordId != d.id
    {
      if t[j].discordId == d.id {
        DiscordHolderUnique(t, j);
      }
    }
  }

  /**
   From a well-formed table a successful link keeps it well formed: Discord
   ids stay unique, and the linked row is active, linked and has no code.
   Exactly that row changes.
   */
  lemma LinkAccountKeepsWf(t: Table, code: Option<string>, discordUser: Option<DiscordData>)
    requires Wf(t)
    ensures Wf(LinkAccount(t, code, discordUser).table)
    ensures LinkAccount(t, code, discordUser).out.Linked? ==>
      exists i | 0 <= i < |t| :: t[i].activationCode == code
        && LinkAccount(t, code, discordUser).table == t[i := Apply(t[i], LinkPatch(discordUser.value))]
  {
    if LinkAccount(t, code, discordUser).out.Linked? {
      var i := LinkedShape(t, code, discordUser);
      SetRowKeepsWf(t, i, Apply(t[i], LinkPatch(discordUser.value)));
    }
  }

  /**
   Discord ids stay unique through linking even without the rest of the
   invariant, and the account linked is active afterwards.
   */
  lemma LinkKeepsDiscordIdsUnique(t: Table, code: Option<string>, discordUser: Option<DiscordData>)
    requires IdsUnique(t) && DiscordIdsUnique(t)
    ensures DiscordIdsUnique(LinkAccount(t, code, discordUser).table)
    ensures LinkAccount(t, code, discordUser).out.Linked? ==>
      var id := LinkAccount(t, code, discordUser).out.user.id;
      FindById(LinkAccount(t, code, discordUser).table, id).Some?
      && FindById(LinkAccount(t, code, discordUser).table, id).value.isActive
  {
    if LinkAccount(t, code, discordUser).out.Linked? {
      var i := LinkedShape(t, code, discordUser);
      var b := Apply(t[i], LinkPatch(discordUser.value));
      SetRowKeepsDiscordIdsUnique(t, i, b);
      assert LinkAccount(t, code, discordUser).out.user.id == b.id;
      SetRowKeepsIdsUnique(t, i, b);
      FindByIdUnique(t[i := b], i);
    }
  }

  /** A code that has been redeemed is refused on a second attempt with 404. */
  lemma LinkAccountTwice(t: Table, code: Option<string>, u1: Option<DiscordData>, u2: Option<DiscordData>)
    requires Wf(t)
    requires forall i, j | 0 <= i < |t| && 0 <= j < |t| ::
      t[i].activationCode == code && t[j].activationCode == code ==> i == j
    requires LinkAccount(t, code, u1).out.Linked?
    requires Complete(code, u2)
    ensures var t' := LinkAccount(t, code, u1).table;
      LinkAccount(t', code, u2).out == CodeNotFound && LinkAccount(t', code, u2).table == t'
  {
    LinkAccountKeepsWf(t, code, u1);
    var t' := LinkAccount(t, code, u1).table;
    var i :| 0 <= i < |t| && t[i].activationCode == code
        && t' == t[i := Apply(t[i], LinkPatch(u1.value))];
    forall j | 0 <= j < |t'|
      ensures t'[j].activationCode != code
    {
      if j != i {
        assert t'[j] == t[j];
      }
    }
  }
}

=== FILE: invariants.dfy ===
/**
 The invariant the account lifecycle keeps over the `users` table, and the
 facts about lookups and single-row updates that hold under it.
 */
module AccountInvariants {

  import opened JsValues
  import opened UserModel

  predicate IdsUnique(t: Table) {
    forall i, j | 0 <= i < j < |t| :: t[i].id != t[j].id
  }

  /** No two usernames are equal up to case. */
  predicate UsernamesUnique(t: Table) {
    forall i, j | 0 <= i < j < |t| :: Lower(t[i].username) != Lower(t[j].username)
  }

  predicate EmailsUnique(t: Table) {
    forall i, j | 0 <= i < j < |t| && t[i].email.Some? :: t[i].email != t[j].email
  }

  predicate DiscordIdsUnique(t: Table) {
    forall i, j | 0 <= i < j < |t| && t[i].discordId.Some? :: t[i].discordId != t[j].discordId
  }

  /**
   Per-row invariant: an active row is linked to Discord; a row holds an
   activation code exactly while inactive; recovery code and expiry are
   set and cleared together; stored Discord ids and emails are non-empty.
   */
  predicate RowOk(a: Account) {
    && (a.isActive ==> a.discordId.Some?)
    && (a.activationCode.Some? <==> !a.isActive)
    && (a.recoveryCode.Some? <==> a.recoveryCodeExpires.Some?)
    && (a.discordId.Some? ==> a.discordId.value != "")
    && (a.email.Some? ==> a.email.value != "")
  }

  predicate Wf(t: Table) {
    && IdsUnique(t) && UsernamesUnique(t) && EmailsUnique(t) && DiscordIdsUnique(t)
    && forall i | 0 <= i < |t| :: RowOk(t[i])
  }

  /** Under unique ids, a lookup by a row's id returns that row. */
  lemma FindByIdUnique(t: Table, i: nat)
    requires IdsUnique(t)
    requires i < |t|
    ensures FindById(t, t[i].id) == Some(t[i])
    ensures FirstMatch(t, ById(t[i].id)) == Some(i)
  {
    var m := FirstMatch(t, ById(t[i].id));
    assert m.Some?;
    assert m.value == i;
  }

  /** Under unique Discord ids, a lookup by a row's Discord id returns that row. */
  lemma DiscordHolderUnique(t: Table, i: nat)
    requires DiscordIdsUnique(t)
    requires i < |t| && t[i].discordId.Some?
    ensures FirstMatch(t, ByDiscordId(t[i].discordId.value)) == Some(i)
  {
    var m := FirstMatch(t, ByDiscordId(t[i].discordId.value));
    assert m.Some?;
    assert m.value == i;
  }

  /** Position of the row a lookup by id returns. */
  lemma FindByIdIndex(t: Table, id: Id) returns (i: nat)
    requires FindById(t, id).Some?
    ensures i < |t| && t[i] == FindById(t, id).value && t[i].id == id
    ensures FirstMatch(t, ById(id)) == Some(i)
  {
    i := FirstMatch(t, ById(id)).value;
  }

  /** Under unique ids, an UPDATE by a row's id rewrites that row only. */
  lemma PatchRowsUnique(t: Table, i: nat, p: Patch)
    requires IdsUnique(t)
    requires i < |t|
    ensures PatchRows(t, t[i].id, p) == t[i := Apply(t[i], p)]
  {
  }

  /** Two tables that agree on which rows satisfy `k` have the same first match. */
  lemma FirstMatchSameKeys(t: Table, t': Table, k: Key)
    requires |t| == |t'|
    requires forall j | 0 <= j < |t| :: Matches(t[j], k) == Matches(t'[j], k)
    ensures FirstMatch(t, k) == FirstMatch(t', k)
    ensures Select(t, k).Some? ==> Select(t', k).Some?
  {
    var m, m' := FirstMatch(t, k), FirstMatch(t', k);
    if m.Some? {
      assert m'.Some?;
      assert m.value <= m'.value && m'.value <= m.value;
    }
  }

  /** Rewriting one row without changing its id keeps ids unique. */
  lemma SetRowKeepsIdsUnique(t: Table, i: nat, b: Account)
    requires IdsUnique(t)
    requires i < |t| && b.id == t[i].id
    ensures IdsUnique(t[i := b])
  {
    assert forall j | 0 <= j < |t| :: t[i := b][j].id == t[j].id;
  }

  /** Rewriting one row keeps Discord ids unique when the new row takes no Discord id another row holds. */
  lemma SetRowKeepsDiscordIdsUnique(t: Table, i: nat, b: Account)
    requires DiscordIdsUnique(t)
    requires i < |t|
    requires b.discordId.Some? ==> forall j | 0 <= j < |t| && j != i :: t[j].discordId != b.discordId
    ensures DiscordIdsUnique(t[i := b])
  {
    var t' := t[i := b];
    forall j, k | 0 <= j < k < |t'| && t'[j].discordId.Some?
      ensures t'[j].discordId != t'[k].discordId
    {
      if j != i && k != i {
        assert t'[j] == t[j] && t'[k] == t[k];
      }
    }
  }

  /**
   Rewriting one row keeps the table well formed when the new row is well
   formed, keeps id, username and email, and takes no Discord id another
   row holds.
   */
  lemma SetRowKeepsWf(t: Table, i: nat, b: Account)
    requires Wf(t)
    requires i < |t|
    requires b.id == t[i].id && b.username == t[i].username && b.email == t[i].email
    requires RowOk(b)
    requires b.discordId.Some? ==> forall j | 0 <= j < |t| && j != i :: t[j].discordId != b.discordId
    ensures Wf(t[i := b])
  {
    SetRowKeepsDiscordIdsUnique(t, i, b);
  }

  /** Appending a well-formed row with a fresh id, username, email and no Discord id keeps the table well formed. */
  lemma AppendKeepsWf(t: Table, a: Account)
    requires Wf(t)
    requires RowOk(a) && a.discordId.None?
    requires forall j | 0 <= j < |t| :: t[j].id != a.id && Lower(t[j].username) != Lower(a.username)
    requires a.email.Some? ==> forall j | 0 <= j < |t| :: t[j].email != a.email
    ensures Wf(t + [a])
  {
    var t' := t + [a];
    assert forall j | 0 <= j < |t| :: t'[j] == t[j];
    assert t'[|t|] == a;
  }
}

=== FILE: js_values.dfy ===
/**
 Values as the JavaScript code sees them: optional request fields (absent
 or present), string truthiness, the whitespace class shared by `\s` in
 regular expressions and by `String.prototype.trim`, and `trim` itself.
 */
module JsValues {

  /** A value that may be absent: an omitted request field, or a NULL column. */
  datatype Option<+T> = None | Some(value: T)

  /** JavaScript truthiness of a string-valued field: present and non-empty. */
  predicate Truthy(o: Option<string>) {
    o.Some? && o.value != ""
  }

  /** `value || null`: an empty string collapses to null. */
  function OrNull(o: Option<string>): (r: Option<string>)
    ensures Truthy(o) <==> r.Some?
    ensures r.Some? ==> r == o
  {
    if Truthy(o) then o else None
  }

  /** `String.prototype.length`: UTF-16 code units, two for a character beyond U+FFFF. */
  function Length(s: string): (n: nat)
    ensures |s| <= n <= 2 * |s|
    ensures (forall k | 0 <= k < |s| :: s[k] as int < 0x1_0000) ==> n == |s|
  {
    if |s| == 0 then 0
    else (if s[0] as int < 0x1_0000 then 1 else 2) + Length(s[1..])
  }

  /**
   The characters matched by `\s` and removed by `trim`: the ECMAScript
   WhiteSpace set (tab, vertical tab, form feed, space, no-break space,
   zero width no-break space and the Zs category) plus the LineTerminator set.
   */
  predicate IsSpace(c: char) {
    || c == '\t' || c == '\n' || c == '\U{000B}' || c == '\U{000C}' || c == '\r'
    || c == ' ' || c == '\U{00A0}' || c == '\U{1680}'
    || ('\U{2000}' <= c <= '\U{200A}')
    || c == '\U{2028}' || c == '\U{2029}' || c == '\U{202F}' || c == '\U{205F}'
    || c == '\U{3000}' || c == '\U{FEFF}'
  }

  /** Every character of `s` is whitespace (vacuously so for ""). */
  predicate AllSpace(s: string) {
    forall k | 0 <= k < |s| :: IsSpace(s[k])
  }

  /** Number of leading whitespace characters. */
  function LeadingSpace(s: string): (n: nat)
    ensures n <= |s|
    ensures forall k | 0 <= k < n :: IsSpace(s[k])
    ensures n < |s| ==> !IsSpace(s[n])
  {
    if |s| == 0 || !IsSpace(s[0]) then 0 else 1 + LeadingSpace(s[1..])
  }

  /** Number of trailing whitespace characters. */
  function TrailingSpace(s: string): (n: nat)
    ensures n <= |s|
    ensures forall k | |s| - n <= k < |s| :: IsSpace(s[k])
    ensures n < |s| ==> !IsSpace(s[|s| - n - 1])
  {
    if |s| == 0 || !IsSpace(s[|s| - 1]) then 0 else 1 + TrailingSpace(s[..|s| - 1])
  }

  /** `s.trim()`: the slice of `s` without leading and trailing whitespace. */
  function Trim(s: string): (r: string)
    ensures |r| <= |s|
    ensures r != "" ==> !IsSpace(r[0]) && !IsSpace(r[|r| - 1])
    ensures AllSpace(s) ==> r == ""
  {
    var rest := s[LeadingSpace(s)..];
    rest[..|rest| - TrailingSpace(rest)]
  }

  /** `!s.trim()` holds exactly when `s` consists of whitespace only. */
  lemma TrimEmptyIff(s: string)
    ensures Trim(s) == "" <==> AllSpace(s)
  {
    var lead := LeadingSpace(s);
    var rest := s[lead..];
    var tail := TrailingSpace(rest);
    if !AllSpace(s) {
      var k :| 0 <= k < |s| && !IsSpace(s[k]);
      assert lead <= k;
      assert rest[k - lead] == s[k];
      assert tail < |rest|;
    }
  }
}

=== FILE: public_listing.dfy ===
/**
 The public user replies against the two codes that take over an account.
 `GET /api/users` and `GET /api/users/:id` are open to anyone and strip
 only the password hash, so
 - a recovery code issued by `recoverPassword` is readable from the listing
   and resets the password without any access to the Discord account it
   was sent to;
 - an inactive account's activation code is readable from the listing and
   links that account to any Discord identity through the open
   `POST /api/discord/link`.
 The corrected replies below leave both codes out, and issuing either code
 changes neither of them.
 */
module PublicListing {

  import opened JsValues
  import opened UserModel
  import opened Views
  import opened AccountInvariants
  import opened AuthController
  import opened UserController
  import opened DiscordController
  import Codes

  /**
   As written: right after a code is issued, the resolved account's entry in
   `getUsers` carries the code, and `resetPassword` with that code and any
   new password succeeds.
   */
  lemma ListingRevealsRecoveryCode(t: Table, hash: string -> string, q: Option<string>, draw: nat, now: int,
                                   delivered: bool, newPassword: string) returns (i: nat)
    requires Wf(t)
    requires draw < Codes.RecoverySpan
    requires RecoverPassword(t, q, draw, now, delivered).out in {CodeSent, DeliveryFailed}
    ensures var t' := RecoverPassword(t, q, draw, now, delivered).table;
      var listed := GetUsers(t').users;
      && i < |listed|
      && listed[i].id == Resolve(t, q).value.id
      && listed[i].recoveryCode == Some(Codes.RecoveryCode(draw))
      && ResetPassword(t', hash, q, listed[i].recoveryCode, Some(newPassword), now).out == PasswordUpdated
  {
    i := IssuedRow(t, q, draw, now, delivered);
    var code := Codes.RecoveryCode(draw);
    var b := Apply(t[i], RecoveryPatch(code, now + RecoveryWindow));
    var t' := t[i := b];
    assert GetUsers(t').users[i] == WithoutPassword(b);
    ValidateRewrittenRow(t, q, i, b, code, now + RecoveryWindow, now);
    ResolveAfterRewrite(t, q, i, b);
  }

  /** The listing with the recovery columns left out as well. */
  function PublicUsers(t: Table): (r: seq<PublicView>)
    ensures |r| == |t|
    ensures forall i | 0 <= i < |t| ::
      WithSecrets(r[i], t[i].password, t[i].activationCode, t[i].recoveryCode, t[i].recoveryCodeExpires) == t[i]
  {
    seq(|t|, i requires 0 <= i < |t| => WithoutSecrets(t[i]))
  }

  /** Rewriting one row in its secret columns only leaves the public listing alone. */
  lemma PublicRowUnchanged(t: Table, i: nat, b: Account)
    requires i < |t| && WithoutSecrets(b) == WithoutSecrets(t[i])
    ensures PublicUsers(t[i := b]) == PublicUsers(t)
  {
    assert forall j | 0 <= j < |t| :: PublicUsers(t[i := b])[j] == PublicUsers(t)[j];
  }

  /** Corrected: issuing a recovery code leaves the public listing exactly as it was. */
  lemma PublicListingHidesRecovery(t: Table, q: Option<string>, draw: nat, now: int, delivered: bool)
    requires Wf(t)
    requires draw < Codes.RecoverySpan
    ensures PublicUsers(RecoverPassword(t, q, draw, now, delivered).table) == PublicUsers(t)
  {
    if RecoverPassword(t, q, draw, now, delivered).out in {CodeSent, DeliveryFailed} {
      var i := IssuedRow(t, q, draw, now, delivered);
      var b := Apply(t[i], RecoveryPatch(Codes.RecoveryCode(draw), now + RecoveryWindow));
      PublicRowUnchanged(t, i, b);
    }
  }

  /** A Discord identity no row holds is never reported as in use. */
  lemma FreshIdentityNotInUse(t: Table, code: Option<string>, d: DiscordData)
    requires Truthy(code)
    requires Truthy(d.id) && forall j | 0 <= j < |t| :: t[j].discordId != d.id
    ensures !LinkAccount(t, code, Some(d)).out.DiscordInUse?
  {
    var x := d.id.value;
    assert d.id == Some(x);
    assert Select(t, ByDiscordId(x)).None? by {
      assert forall j | 0 <= j < |t| :: !Matches(t[j], ByDiscordId(x));
    }
    InUseByLookups(t, code, Some(d));
  }

  /** A code some row holds, sent with a Discord identity no row holds, is redeemed. */
  lemma FreshIdentityLinks(t: Table, i: nat, d: DiscordData)
    requires i < |t| && Truthy(t[i].activationCode)
    requires Truthy(d.id) && forall j | 0 <= j < |t| :: t[j].discordId != d.id
    ensures LinkAccount(t, t[i].activationCode, Some(d)).out.Linked?
  {
    var code := t[i].activationCode;
    FreshIdentityNotInUse(t, code, d);
    assert Complete(code, Some(d));
    assert t[i].activationCode == code;
    LinkAccountNeverFails(t, code, Some(d));
  }

  /**
   As written: the activation code an inactive account shows in `getUsers`,
   sent to the link endpoint with a Discord identity no account holds,
   activates an account and links it to that identity.
   */
  lemma ListingRevealsActivationCode(t: Table, i: nat, d: DiscordData)
    requires i < |t| && !t[i].isActive && Truthy(t[i].activationCode)
    requires Truthy(d.id) && forall j | 0 <= j < |t| :: t[j].discordId != d.id
    ensures var code := GetUsers(t).users[i].activationCode;
      && code == t[i].activationCode
      && LinkAccount(t, code, Some(d)).out.Linked?
      && LinkAccount(t, code, Some(d)).out.user.isActive
      && LinkAccount(t, code, Some(d)).out.user.discordId == d.id
  {
    assert GetUsers(t).users[i] == WithoutPassword(t[i]);
    FreshIdentityLinks(t, i, d);
  }

  /** Corrected: reissuing an activation code leaves the public listing exactly as it was. */
  lemma PublicListingHidesActivation(t: Table, id: Id, random: seq<Codes.byte>)
    requires |random| == 4
    requires Wf(t)
    ensures PublicUsers(GenerateActivationCode(t, id, random).table) == PublicUsers(t)
  {
    GenerateActivationCodeKeepsWf(t, id, random);
    if GenerateActivationCode(t, id, random).out.NewActivationCode? {
      var i :| 0 <= i < |t| && t[i].id == id && !t[i].isActive
        && GenerateActivationCode(t, id, random).table
           == t[i := t[i].(activationCode := Some(Codes.ActivationCode(random)))];
      PublicRowUnchanged(t, i, t[i].(activationCode := Some(Codes.ActivationCode(random))));
    }
  }

  /** `getUserById` with the secret columns left out as well. */
  function PublicUserById(t: Table, id: Id): (r: Option<PublicView>)
    ensures r.Some? <==> exists j | 0 <= j < |t| :: t[j].id == id
    ensures r.Some? ==>
      var a := FindById(t, id).value;
      WithSecrets(r.value, a.password, a.activationCode, a.recoveryCode, a.recoveryCodeExpires) == a
  {
    match FindById(t, id)
    case None => None
    case Some(a) => Some(WithoutSecrets(a))
  }

  /** Rewriting one row in its secret columns only leaves every corrected by-id reply alone. */
  lemma PublicRowUnchangedById(t: Table, i: nat, b: Account, id: Id)
    requires i < |t| && WithoutSecrets(b) == WithoutSecrets(t[i])
    ensures PublicUserById(t[i := b], id) == PublicUserById(t, id)
  {
    var t' := t[i := b];
    assert b.id == t[i].id;
    FirstMatchSameKeys(t, t', ById(id));
  }

  /**
   As written: right after a recovery code is issued, `getUserById` of the
   resolved account carries the code, and `resetPassword` with it and any
   new password succeeds.
   */
  lemma ByIdRevealsRecoveryCode(t: Table, hash: string -> string, q: Option<string>, draw: nat, now: int,
                                delivered: bool, newPassword: string)
    requires Wf(t)
    requires draw < Codes.RecoverySpan
    requires RecoverPassword(t, q, draw, now, delivered).out in {CodeSent, DeliveryFailed}
    ensures var t' := RecoverPassword(t, q, draw, now, delivered).table;
      var reply := GetUserById(t', Resolve(t, q).value.id);
      && reply.UserFound?
      && reply.user.recoveryCode == Some(Codes.RecoveryCode(draw))
      && ResetPassword(t', hash, q, reply.user.recoveryCode, Some(newPassword), now).out == PasswordUpdated
  {
    var i := ListingRevealsRecoveryCode(t, hash, q, draw, now, delivered, newPassword);
    var t' := RecoverPassword(t, q, draw, now, delivered).table;
    RecoverPasswordKeepsWf(t, q, draw, now, delivered);
    assert GetUsers(t').users[i] == WithoutPassword(t'[i]);
    FindByIdUnique(t', i);
  }

  /** Corrected: issuing a recovery code leaves every corrected by-id reply exactly as it was. */
  lemma PublicUserByIdHidesRecovery(t: Table, q: Option<string>, draw: nat, now: int, delivered: bool, id: Id)
    requires Wf(t)
    requires draw < Codes.RecoverySpan
    ensures PublicUserById(RecoverPassword(t, q, draw, now, delivered).table, id) == PublicUserById(t, id)
  {
    if RecoverPassword(t, q, draw, now, delivered).out in {CodeSent, DeliveryFailed} {
      var i := IssuedRow(t, q, draw, now, delivered);
      var b := Apply(t[i], RecoveryPatch(Codes.RecoveryCode(draw), now + RecoveryWindow));
      PublicRowUnchangedById(t, i, b, id);
    }
  }

  /**
   As written: `getUserById` of an inactive account carries its activation
   code, which with a Discord identity no account holds links an account to
   that identity.
   */
  lemma ByIdRevealsActivationCode(t: Table, i: nat, d: DiscordData)
    requires IdsUnique(t)
    requires i < |t| && !t[i].isActive && Truthy(t[i].activationCode)
    requires Truthy(d.id) && forall j | 0 <= j < |t| :: t[j].discordId != d.id
    ensures var reply := GetUserById(t, t[i].id);
      && reply.UserFound?
      && reply.user.activationCode == t[i].activationCode
      && LinkAccount(t, reply.user.activationCode, Some(d)).out.Linked?
      && LinkAccount(t, reply.user.activationCode, Some(d)).out.user.discordId == d.id
  {
    FindByIdUnique(t, i);
    FreshIdentityLinks(t, i, d);
  }

  /** Corrected: reissuing an activation code leaves every corrected by-id reply exactly as it was. */
  lemma PublicUserByIdHidesActivation(t: Table, id: Id, random: seq<Codes.byte>, x: Id)
    requires |random| == 4
    requires Wf(t)
    ensures PublicUserById(GenerateActivationCode(t, id, random).table, x) == PublicUserById(t, x)
  {
    GenerateActivationCodeKeepsWf(t, id, random);
    if GenerateActivationCode(t, id, random).out.NewActivationCode? {
      var i :| 0 <= i < |t| && t[i].id == id && !t[i].isActive
        && GenerateActivationCode(t, id, random).table
           == t[i := t[i].(activationCode := Some(Codes.ActivationCode(random)))];
      PublicRowUnchangedById(t, i, t[i].(activationCode := Some(Codes.ActivationCode(random))), x);
    }
  }
}

=== FILE: register_screen.dfy ===
/**
 The client-side check of the registration form, run before the request is
 sent. The checks run in order and the first failing one decides; the
 e-mail pattern (a long regular expression applied to the lower-cased
 address) is the parameter `validEmail`.
 */
module RegisterScreen {

  import opened JsValues

  datatype RegisterForm = RegisterForm(username: string, email: string, password: string, confirmPassword: string)

  datatype Verdict =
    | Accepted
    | MissingRequired    // username, password or confirmation empty
    | PasswordsDiffer
    | PasswordTooShort   // fewer than 6 UTF-16 code units
    | InvalidEmail       // a non-empty address the pattern refuses

  const MinPasswordLength: nat := 6

  /** `validateForm`. */
  function ValidateForm(f: RegisterForm, validEmail: string -> bool): (v: Verdict)
    ensures v == MissingRequired <==> f.username == "" || f.password == "" || f.confirmPassword == ""
    ensures v == PasswordsDiffer <==>
      f.username != "" && f.password != "" && f.confirmPassword != "" && f.password != f.confirmPassword
    ensures v == PasswordTooShort <==>
      f.username != "" && f.confirmPassword != "" && f.password == f.confirmPassword
      && 0 < Length(f.password) < MinPasswordLength
    ensures v == InvalidEmail <==>
      f.username != "" && f.password == f.confirmPassword && Length(f.password) >= MinPasswordLength
      && f.email != "" && !validEmail(f.email)
    ensures v == Accepted <==>
      f.username != "" && f.password == f.confirmPassword && Length(f.password) >= MinPasswordLength
      && (f.email == "" || validEmail(f.email))
  {
    if f.username == "" || f.password == "" || f.confirmPassword == "" then MissingRequired
    else if f.password != f.confirmPassword then PasswordsDiffer
    else if Length(f.password) < MinPasswordLength then PasswordTooShort
    else if f.email != "" && !validEmail(f.email) then InvalidEmail
    else Accepted
  }

  /**
   Later checks run only when earlier ones pass: a refusal on the required
   fields, the confirmation or the length does not depend on the e-mail or
   on the pattern, and an empty e-mail is never handed to the pattern.
   */
  lemma EarlierChecksDecide(f: RegisterForm, email: string, validEmail: string -> bool, validEmail': string -> bool)
    ensures ValidateForm(f, validEmail) in {MissingRequired, PasswordsDiffer, PasswordTooShort} ==>
      ValidateForm(f.(email := email), validEmail') == ValidateForm(f, validEmail)
    ensures f.email == "" ==> ValidateForm(f, validEmail) == ValidateForm(f, validEmail')
  {
  }

  /** An accepted form has a password of at least six code units that its confirmation repeats. */
  lemma AcceptedPassword(f: RegisterForm, validEmail: string -> bool)
    requires ValidateForm(f, validEmail) == Accepted
    ensures f.password == f.confirmPassword && |f.password| >= 3 && Length(f.confirmPassword) >= 6
  {
  }
}

=== FILE: user_controller.dfy ===
/**
 The user endpoints: list, fetch by id, create, issue a new activation
 code, and report status. The password hash is the parameter `hash`
 (bcrypt), the new row's id is `id` (derived from the clock), and `random`
 stands for the four random bytes of an activation code.
 */
module UserController {

  import opened JsValues
  import opened UserModel
  import opened Views
  import opened AccountInvariants
  import Codes

  datatype UserReply =
    | UserList(users: seq<UserView>)
    | UserFound(user: UserView)
    | UserNotFound                                  // 404
    | MissingFields                                 // 400: username or password missing
    | UsernameTaken                                 // 400
    | EmailTaken                                    // 400
    | UserCreated(user: UserView)
    | AlreadyActive                                 // 400: no new code for an active account
    | NewActivationCode(code: Option<string>)
    | UserStatus(isActive: bool, discordLinked: bool)
    | ServerError                                   // 500: the handler threw
  {
    function Status(): int {
      match this
      case UserNotFound => 404
      case MissingFields => 400
      case UsernameTaken => 400
      case EmailTaken => 400
      case AlreadyActive => 400
      case ServerError => 500
      case _ => 200
    }
  }

  /** `getUsers`: every row, in table order, without its password. */
  function GetUsers(t: Table): (r: UserReply)
    ensures r.UserList? && |r.users| == |t|
    ensures forall i | 0 <= i < |t| :: WithPassword(r.users[i], t[i].password) == t[i]
  {
    UserList(seq(|t|, i requires 0 <= i < |t| => WithoutPassword(t[i])))
  }

  /** `getUserById`. */
  function GetUserById(t: Table, id: Id): (r: UserReply)
    ensures r.UserNotFound? <==> forall j | 0 <= j < |t| :: t[j].id != id
    ensures r.UserNotFound? || r.UserFound?
    ensures r.UserFound? ==> r.user.id == id && WithPassword(r.user, FindById(t, id).value.password) in t
  {
    match FindById(t, id)
    case None => UserNotFound
    case Some(u) => UserFound(WithoutPassword(u))
  }

  /** `createUser`. */
  function CreateUser(t: Table, hash: string -> string, username: Option<string>, password: Option<string>,
                      email: Option<string>, id: Id, random: seq<Codes.byte>): (r: Step<UserReply>)
    requires |random| == 4
    ensures r.out in {MissingFields, UsernameTaken, EmailTaken, ServerError} || r.out.UserCreated?
    ensures r.out == MissingFields <==> !Truthy(username) || !Truthy(password)
    ensures r.out == UsernameTaken <==>
      Truthy(username) && Truthy(password)
      && exists j | 0 <= j < |t| :: Lower(t[j].username) == Lower(username.value)
    ensures r.out == EmailTaken <==>
      && Truthy(username) && Truthy(password)
      && (forall j | 0 <= j < |t| :: Lower(t[j].username) != Lower(username.value))
      && Truthy(email) && exists j | 0 <= j < |t| :: t[j].email == email
    ensures r.out == ServerError <==>
      && Truthy(username) && Truthy(password)
      && (forall j | 0 <= j < |t| :: Lower(t[j].username) != Lower(username.value))
      && (Truthy(email) ==> forall j | 0 <= j < |t| :: t[j].email != email)
      && exists j | 0 <= j < |t| :: t[j].id == id
    ensures !r.out.UserCreated? ==> r.table == t
    ensures r.out.UserCreated? ==>
      && (forall j | 0 <= j < |t| :: Lower(t[j].username) != Lower(username.value))
      && (Truthy(email) ==> forall j | 0 <= j < |t| :: t[j].email != email)
      && r.table == t + [WithPassword(r.out.user, hash(password.value))]
      && !r.out.user.isActive && r.out.user.activationCode == Some(Codes.ActivationCode(random))
      && r.out.user.email == OrNull(email)
    ensures r.out.UserCreated? ==>
      && r.out.user.id == id && r.out.user.username == username.value
      && r.out.user.discordId.None? && r.out.user.discordUsername.None? && r.out.user.discordAvatar.None?
      && r.out.user.recoveryCode.None? && r.out.user.recoveryCodeExpires.None?
  {
    if !Truthy(username) || !Truthy(password) then Step(MissingFields, t)
    else if FindOne(t, NoFilter.(username := username)).Some? then
      FindOneByUsername(t, username.value);
      Step(UsernameTaken, t)
    else if Truthy(email) && FindOne(t, NoFilter.(email := email)).Some? then
      assert FilterKey(NoFilter.(email := email)) == Some(ByEmail(email.value));
      Step(EmailTaken, t)
    else
      FindOneByUsername(t, username.value);
      assert Truthy(email) ==> FilterKey(NoFilter.(email := email)) == Some(ByEmail(email.value));
      var s := Create(t, id, username.value, hash(password.value), email, random);
      match s.out
      case Threw => Step(ServerError, t)
      case Ok(a) =>
        ViewLosesOnlyPassword(a, a);
        Step(UserCreated(WithoutPassword(a)), s.table)
  }

  /** The e-mail check runs only for a supplied e-mail: without one, no request is refused for it. */
  lemma CreateUserEmailOptional(t: Table, hash: string -> string, username: Option<string>, password: Option<string>,
                                email: Option<string>, id: Id, random: seq<Codes.byte>)
    requires |random| == 4
    requires !Truthy(email)
    ensures CreateUser(t, hash, username, password, email, id, random).out != EmailTaken
    ensures CreateUser(t, hash, username, password, email, id, random).out.UserCreated? ==>
      CreateUser(t, hash, username, password, email, id, random).out.user.email.None?
  {
  }

  /** Creating an account keeps the table well formed. */
  lemma CreateUserKeepsWf(t: Table, hash: string -> string, username: Option<string>, password: Option<string>,
                          email: Option<string>, id: Id, random: seq<Codes.byte>)
    requires |random| == 4
    requires Wf(t)
    ensures Wf(CreateUser(t, hash, username, password, email, id, random).table)
  {
    var r := CreateUser(t, hash, username, password, email, id, random);
    if r.out.UserCreated? {
      var a := WithPassword(r.out.user, hash(password.value));
      assert r.table == t + [a];
      AppendKeepsWf(t, a);
    }
  }

  /**
   `generateActivationCode`: 404 for an unknown id and 400 for an active
   account, both without change; otherwise only the row's activation code
   is replaced, and the new code is returned.
   */
  function GenerateActivationCode(t: Table, id: Id, random: seq<Codes.byte>): (r: Step<UserReply>)
    requires |random| == 4
    ensures r.out in {UserNotFound, AlreadyActive} || r.out.NewActivationCode?
    ensures r.out == UserNotFound <==> forall j | 0 <= j < |t| :: t[j].id != id
    ensures r.out == AlreadyActive <==> FindById(t, id).Some? && FindById(t, id).value.isActive
    ensures !r.out.NewActivationCode? ==> r.table == t
    ensures r.out.NewActivationCode? ==>
      && r.out.code == Some(Codes.ActivationCode(random))
      && r.table == PatchRows(t, id, NoChange.(activationCode := Some(r.out.code)))
  {
    match FindById(t, id)
    case None => Step(UserNotFound, t)
    case Some(u) =>
      if u.isActive then Step(AlreadyActive, t)
      else
        var s := GenerateNewActivationCode(t, id, random);
        Step(NewActivationCode(s.out), s.table)
  }

  /** Reissuing an activation code keeps the table well formed and touches one column of one row. */
  lemma GenerateActivationCodeKeepsWf(t: Table, id: Id, random: seq<Codes.byte>)
    requires |random| == 4
    requires Wf(t)
    ensures Wf(GenerateActivationCode(t, id, random).table)
    ensures GenerateActivationCode(t, id, random).out.NewActivationCode? ==>
      exists i | 0 <= i < |t| :: t[i].id == id && !t[i].isActive
        && GenerateActivationCode(t, id, random).table
           == t[i := t[i].(activationCode := Some(Codes.ActivationCode(random)))]
  {
    var r := GenerateActivationCode(t, id, random);
    if r.out.NewActivationCode? {
      var i := FindByIdIndex(t, id);
      var p := NoChange.(activationCode := Some(Some(Codes.ActivationCode(random))));
      PatchRowsUnique(t, i, p);
      assert Apply(t[i], p) == t[i].(activationCode := Some(Codes.ActivationCode(random)));
      SetRowKeepsWf(t, i, Apply(t[i], p));
    }
  }

  /** `checkUserStatus`: a pure read of the active flag and the Discord link. */
  function CheckUserStatus(t: Table, id: Id): (r: UserReply)
    ensures r.UserNotFound? <==> forall j | 0 <= j < |t| :: t[j].id != id
    ensures r.UserNotFound? || r.UserStatus?
    ensures r.UserStatus? ==>
      && r.isActive == FindById(t, id).value.isActive
      && (r.discordLinked <==> Truthy(FindById(t, id).value.discordId))
  {
    match FindById(t, id)
    case None => UserNotFound
    case Some(u) => UserStatus(u.isActive, Truthy(u.discordId))
  }

  /**
   On a well-formed table the status reports a link exactly when a Discord
   id is stored, and an active account always reports a link.
   */
  lemma StatusOnWfTable(t: Table, id: Id)
    requires Wf(t)
    ensures var r := CheckUserStatus(t, id);
      r.UserStatus? ==>
        && (r.discordLinked <==> FindById(t, id).value.discordId.Some?)
        && (r.isActive ==> r.discordLinked)
  {
    if FindById(t, id).Some? {
      var i := FindByIdIndex(t, id);
      assert RowOk(t[i]);
    }
  }
}

=== FILE: user_model.dfy ===
/**
 The `users` table and the data-access operations over it (the `User`
 model of the backend). The table is a sequence of rows in table order:
 every SELECT here returns its first matching row (`rows[0] || null`), and
 every `UPDATE ... WHERE id = ?` rewrites every row carrying that id.
 */
module UserModel {

  import opened JsValues
  import Codes

  type Id = string

  /** One row of the `users` table. `password` holds the bcrypt hash. */
  datatype Account = Account(
    id: Id,
    username: string,
    password: string,
    email: Option<string>,
    isActive: bool,
    activationCode: Option<string>,
    discordId: Option<string>,
    discordUsername: Option<string>,
    discordAvatar: Option<string>,
    recoveryCode: Option<string>,
    recoveryCodeExpires: Option<int>)  // milliseconds since the epoch

  type Table = seq<Account>

  /** What a data-access call hands back: a value, or the query threw. */
  datatype Db<+T> = Ok(value: T) | Threw

  /** A reply together with the table as it stands afterwards. */
  datatype Step<+R> = Step(out: R, table: Table)

  // ---------------------------------------------------------------------------
  // Lookup

  /** SQL `LOWER` on one character (ASCII letters only). */
  function LowerChar(c: char): char {
    if 'A' <= c <= 'Z' then (c as int - 'A' as int + 'a' as int) as char else c
  }

  /** SQL `LOWER` on a string. */
  function Lower(s: string): string {
    seq(|s|, k requires 0 <= k < |s| => LowerChar(s[k]))
  }

  /** The WHERE clauses the model issues. */
  datatype Key =
    | ByUsername(name: string)        // LOWER(username) = LOWER(?)
    | ByEmail(email: string)          // email = ?
    | ByActivationCode(code: string)  // activationCode = ?
    | ByDiscordId(discordId: string)  // discordId = ?
    | ById(id: Id)                    // id = ?

  /** A row satisfies a WHERE clause. A NULL column equals nothing. */
  predicate Matches(a: Account, k: Key) {
    match k
    case ByUsername(n) => Lower(a.username) == Lower(n)
    case ByEmail(e) => a.email == Some(e)
    case ByActivationCode(c) => a.activationCode == Some(c)
    case ByDiscordId(d) => a.discordId == Some(d)
    case ById(id) => a.id == id
  }

  /** Position of the first row satisfying `k`, if any. */
  function FirstMatch(t: Table, k: Key): (r: Option<nat>)
    ensures r.Some? ==> r.value < |t| && Matches(t[r.value], k)
    ensures r.Some? ==> forall j | 0 <= j < r.value :: !Matches(t[j], k)
    ensures r.None? <==> forall j | 0 <= j < |t| :: !Matches(t[j], k)
  {
    if |t| == 0 then None
    else if Matches(t[0], k) then Some(0)
    else
      match FirstMatch(t[1..], k)
      case None => None
      case Some(i) => Some(i + 1)
  }

  /** `SELECT * FROM users WHERE <k>` followed by `rows[0] || null`. */
  function Select(t: Table, k: Key): (r: Option<Account>)
    ensures r.Some? <==> exists j | 0 <= j < |t| :: Matches(t[j], k)
    ensures r.Some? ==> r.value in t && Matches(r.value, k)
  {
    match FirstMatch(t, k)
    case None => None
    case Some(i) => Some(t[i])
  }

  /** `findById`. */
  function FindById(t: Table, id: Id): (r: Option<Account>)
    ensures r.Some? <==> exists j | 0 <= j < |t| :: t[j].id == id
    ensures r.Some? ==> r.value in t && r.value.id == id
  {
    Select(t, ById(id))
  }

  /** The filter object passed to `findOne`; an absent key is None. */
  datatype Filter = Filter(
    username: Option<string>,
    email: Option<string>,
    activationCode: Option<string>,
    discordId: Option<string>)

  const NoFilter := Filter(None, None, None, None)

  /** The WHERE clause `findOne` builds: the first truthy key, in fixed order. */
  function FilterKey(f: Filter): Option<Key> {
    if Truthy(f.username) then Some(ByUsername(f.username.value))
    else if Truthy(f.email) then Some(ByEmail(f.email.value))
    else if Truthy(f.activationCode) then Some(ByActivationCode(f.activationCode.value))
    else if Truthy(f.discordId) then Some(ByDiscordId(f.discordId.value))
    else None
  }

  /** `findOne`. */
  function FindOne(t: Table, f: Filter): (r: Option<Account>)
    ensures r.Some? ==> r.value in t
    ensures FilterKey(f).None? ==> r.None?
    ensures FilterKey(f).Some? ==> (r.Some? <==> exists j | 0 <= j < |t| :: Matches(t[j], FilterKey(f).value))
    ensures r.Some? ==> Matches(r.value, FilterKey(f).value)
  {
    match FilterKey(f)
    case None => None
    case Some(k) => Select(t, k)
  }

  /** A username lookup finds a row exactly when some stored name equals the query up to case. */
  lemma FindOneByUsername(t: Table, name: string)
    requires name != ""
    ensures FindOne(t, NoFilter.(username := Some(name))).Some?
        <==> exists j | 0 <= j < |t| :: Lower(t[j].username) == Lower(name)
    ensures FindOne(t, NoFilter.(username := Some(name))).Some? ==>
        Lower(FindOne(t, NoFilter.(username := Some(name))).value.username) == Lower(name)
  {
    assert FilterKey(NoFilter.(username := Some(name))) == Some(ByUsername(name));
  }

  /**
   Key precedence: a truthy username decides the lookup whatever else the
   filter holds; a falsy one is ignored, and so on down the order username,
   email, activationCode, discordId. With no truthy key there is no result.
   */
  lemma FindOnePrecedence(t: Table, f: Filter)
    ensures Truthy(f.username) ==>
      FindOne(t, f) == FindOne(t, NoFilter.(username := f.username))
    ensures !Truthy(f.username) && Truthy(f.email) ==>
      FindOne(t, f) == FindOne(t, NoFilter.(email := f.email))
    ensures !Truthy(f.username) && !Truthy(f.email) && Truthy(f.activationCode) ==>
      FindOne(t, f) == FindOne(t, NoFilter.(activationCode := f.activationCode))
    ensures !Truthy(f.username) && !Truthy(f.email) && !Truthy(f.activationCode) ==>
      FindOne(t, f) == FindOne(t, NoFilter.(discordId := f.discordId))
    ensures (!Truthy(f.username) && !Truthy(f.email) && !Truthy(f.activationCode)
             && !Truthy(f.discordId)) ==> FindOne(t, f).None?
  {
  }

  // ---------------------------------------------------------------------------
  // Insert

  /**
   `create`: a fresh row, inactive, holding a new activation code and no
   Discord or recovery data. `random` stands for the four random bytes and
   `id` for the timestamp-derived identifier; an id already present makes
   the INSERT fail on the primary key.
   */
  function Create(t: Table, id: Id, username: string, passwordHash: string,
                  email: Option<string>, random: seq<Codes.byte>): (r: Step<Db<Account>>)
    requires |random| == 4
    ensures r.out.Threw? <==> exists j | 0 <= j < |t| :: t[j].id == id
    ensures r.out.Threw? ==> r.table == t
    ensures r.out.Ok? ==> r.table == t + [r.out.value]
    ensures r.out.Ok? ==> FindById(r.table, id) == Some(r.out.value)
    ensures r.out.Ok? ==> var a := r.out.value;
      && a.id == id && a.username == username && a.password == passwordHash
      && a.email == OrNull(email)
      && !a.isActive
      && a.activationCode == Some(Codes.ActivationCode(random))
      && a.discordId.None? && a.discordUsername.None? && a.discordAvatar.None?
      && a.recoveryCode.None? && a.recoveryCodeExpires.None?
  {
    if FindById(t, id).Some? then Step(Threw, t)
    else
      var a := Account(id, username, passwordHash, OrNull(email), false,
                       Some(Codes.ActivationCode(random)), None, None, None, None, None);
      var t' := t + [a];
      assert Matches(t'[|t|], ById(id));
      assert forall j | 0 <= j < |t| :: t'[j] == t[j];
      assert FirstMatch(t', ById(id)) == Some(|t|);
      Step(Ok(a), t')
  }

  // ---------------------------------------------------------------------------
  // Update

  /** The typed form of the key/value object given to `update`: None leaves a column alone. */
  datatype Patch = Patch(
    username: Option<string>,
    password: Option<string>,
    email: Option<Option<string>>,
    isActive: Option<bool>,
    activationCode: Option<Option<string>>,
    discordId: Option<Option<string>>,
    discordUsername: Option<Option<string>>,
    discordAvatar: Option<Option<string>>,
    recoveryCode: Option<Option<string>>,
    recoveryCodeExpires: Option<Option<int>>)

  const NoChange := Patch(None, None, None, None, None, None, None, None, None, None)

  function Pick<T>(patched: Option<T>, current: T): T {
    if patched.Some? then patched.value else current
  }

  /** The row after `SET` with the patch's columns. */
  function Apply(a: Account, p: Patch): Account {
    a.(username := Pick(p.username, a.username),
       password := Pick(p.password, a.password),
       email := Pick(p.email, a.email),
       isActive := Pick(p.isActive, a.isActive),
       activationCode := Pick(p.activationCode, a.activationCode),
       discordId := Pick(p.discordId, a.discordId),
       discordUsername := Pick(p.discordUsername, a.discordUsername),
       discordAvatar := Pick(p.discordAvatar, a.discordAvatar),
       recoveryCode := Pick(p.recoveryCode, a.recoveryCode),
       recoveryCodeExpires := Pick(p.recoveryCodeExpires, a.recoveryCodeExpires))
  }

  /** Patching is idempotent, keeps the id, and the empty patch is the identity. */
  lemma ApplyLaws(a: Account, p: Patch)
    ensures Apply(Apply(a, p), p) == Apply(a, p)
    ensures Apply(a, p).id == a.id
    ensures Apply(a, NoChange) == a
  {
  }

  /** `a` and `b` agree on the id and on every column the patch leaves alone. */
  predicate AgreeOutside(a: Account, b: Account, p: Patch) {
    && a.id == b.id
    && (p.username.None? ==> a.username == b.username)
    && (p.password.None? ==> a.password == b.password)
    && (p.email.None? ==> a.email == b.email)
    && (p.isActive.None? ==> a.isActive == b.isActive)
    && (p.activationCode.None? ==> a.activationCode == b.activationCode)
    && (p.discordId.None? ==> a.discordId == b.discordId)
    && (p.discordUsername.None? ==> a.discordUsername == b.discordUsername)
    && (p.discordAvatar.None? ==> a.discordAvatar == b.discordAvatar)
    && (p.recoveryCode.None? ==> a.recoveryCode == b.recoveryCode)
    && (p.recoveryCodeExpires.None? ==> a.recoveryCodeExpires == b.recoveryCodeExpires)
  }

  /**
   A patch changes exactly the columns it names: the patched row agrees with
   the original outside the patch, and two rows give the same patched row
   exactly when they agree outside the patch.
   */
  lemma ApplyChangesOnlyPatched(a: Account, b: Account, p: Patch)
    ensures AgreeOutside(Apply(a, p), a, p)
    ensures Apply(a, p) == Apply(b, p) <==> AgreeOutside(a, b, p)
  {
  }

  /** The effect of `UPDATE users SET <p> WHERE id = ?` on the table. */
  function PatchRows(t: Table, id: Id, p: Patch): (r: Table)
    ensures |r| == |t|
    ensures forall i | 0 <= i < |t| :: r[i] == (if t[i].id == id then Apply(t[i], p) else t[i])
  {
    seq(|t|, i requires 0 <= i < |t| => if t[i].id == id then Apply(t[i], p) else t[i])
  }

  /**
   `update`: an empty patch yields `UPDATE users SET  WHERE ...`, which the
   database rejects; an id with no row affects nothing and gives null;
   otherwise the rows with that id are patched and the first is returned.
   */
  function Update(t: Table, id: Id, p: Patch): (r: Step<Db<Option<Account>>>)
    ensures r.out.Threw? <==> p == NoChange
    ensures r.out == Ok(None) <==> p != NoChange && forall j | 0 <= j < |t| :: t[j].id != id
    ensures !r.out.Ok? || r.out.value.None? ==> r.table == t
    ensures |r.table| == |t|
    ensures forall i | 0 <= i < |t| && t[i].id != id :: r.table[i] == t[i]
    ensures r.out.Ok? && r.out.value.Some? ==>
      && (forall i | 0 <= i < |t| && t[i].id == id :: r.table[i] == Apply(t[i], p))
      && r.out.value == Some(Apply(FindById(t, id).value, p))
  {
    if p == NoChange then Step(Threw, t)
    else if FindById(t, id).None? then Step(Ok(None), t)
    else
      var t' := PatchRows(t, id, p);
      var i :| FirstMatch(t, ById(id)) == Some(i);
      assert FirstMatch(t', ById(id)) == Some(i) by {
        FirstMatchAfterPatch(t, id, p);
      }
      Step(Ok(FindById(t', id)), t')
  }

  /** Patching never changes ids, so lookups by id land on the same position. */
  lemma FirstMatchAfterPatch(t: Table, id: Id, p: Patch)
    ensures FirstMatch(PatchRows(t, id, p), ById(id)) == FirstMatch(t, ById(id))
  {
    var t' := PatchRows(t, id, p);
    assert forall j | 0 <= j < |t| :: t'[j].id == t[j].id;
    match FirstMatch(t, ById(id))
    case None =>
    case Some(i) =>
      var m := FirstMatch(t', ById(id));
      assert m.Some?;
      assert m.value <= i && i <= m.value;
  }

  // ---------------------------------------------------------------------------
  // Activation

  /** The Discord identity handed to `linkDiscord`; each part may be missing. */
  datatype DiscordData = DiscordData(id: Option<string>, username: Option<string>, avatar: Option<string>)

  /** The columns `linkDiscord` writes. */
  function LinkPatch(d: DiscordData): Patch {
    NoChange.(discordId := Some(d.id), discordUsername := Some(d.username),
              discordAvatar := Some(d.avatar), isActive := Some(true),
              activationCode := Some(None))
  }

  /**
   `linkDiscord`: redeems an activation code. No holder (or an empty code)
   gives null and no change; otherwise the first holder's row becomes
   active, carries the Discord identity and loses its activation code.
   */
  function LinkDiscord(t: Table, code: string, d: DiscordData): (r: Step<Db<Option<Account>>>)
    ensures r.out.Ok?
    ensures r.out.value.None? <==> code == "" || forall j | 0 <= j < |t| :: t[j].activationCode != Some(code)
    ensures r.out.value.None? ==> r.table == t
    ensures r.out.value.Some? ==>
      var a := r.out.value.value;
      var holder := FindOne(t, NoFilter.(activationCode := Some(code))).value;
      && a.id == holder.id
      && a == Apply(FindById(t, a.id).value, LinkPatch(d))
      && r.table == PatchRows(t, a.id, LinkPatch(d))
  {
    match FindOne(t, NoFilter.(activationCode := Some(code)))
    case None => Step(Ok(None), t)
    case Some(u) =>
      var r := Update(t, u.id, LinkPatch(d));
      assert FindById(t, u.id).Some?;
      r
  }

  /**
   What redemption writes: the returned row is active, has no activation
   code, carries the Discord identity, and keeps every other column.
   */
  lemma LinkDiscordActivates(t: Table, code: string, d: DiscordData)
    requires LinkDiscord(t, code, d).out.value.Some?
    ensures var a := LinkDiscord(t, code, d).out.value.value;
      var before := FindById(t, a.id).value;
      && a.isActive && a.activationCode.None?
      && a.discordId == d.id && a.discordUsername == d.username && a.discordAvatar == d.avatar
      && a.username == before.username && a.password == before.password && a.email == before.email
      && a.recoveryCode == before.recoveryCode && a.recoveryCodeExpires == before.recoveryCodeExpires
  {
  }

  /**
   A redeemed code cannot be redeemed again: when a single row held the
   code, a second `linkDiscord` with it finds nothing and changes nothing.
   */
  lemma {:induction false} LinkDiscordOnce(t: Table, code: string, d: DiscordData, d': DiscordData)
    requires forall i, j | 0 <= i < |t| && 0 <= j < |t| ::
      t[i].activationCode == Some(code) && t[j].activationCode == Some(code) ==> i == j
    requires LinkDiscord(t, code, d).out.value.Some?
    ensures var t' := LinkDiscord(t, code, d).table;
      LinkDiscord(t', code, d').out == Ok(None) && LinkDiscord(t', code, d').table == t'
  {
    var holder := FindOne(t, NoFilter.(activationCode := Some(code))).value;
    var t' := LinkDiscord(t, code, d).table;
    var i :| FirstMatch(t, ByActivationCode(code)) == Some(i);
    forall j | 0 <= j < |t'|
      ensures t'[j].activationCode != Some(code)
    {
      if t[j].id != holder.id {
        assert j != i;
      }
    }
  }

  /** `generateNewActivationCode`: null for an unknown id, else the new code, now stored. */
  function GenerateNewActivationCode(t: Table, id: Id, random: seq<Codes.byte>): (r: Step<Option<string>>)
    requires |random| == 4
    ensures r.out.None? <==> forall j | 0 <= j < |t| :: t[j].id != id
    ensures r.out.None? ==> r.table == t
    ensures r.out.Some? ==>
      && r.out.value == Codes.ActivationCode(random)
      && r.table == PatchRows(t, id, NoChange.(activationCode := Some(r.out)))
      && FindById(r.table, id).value.activationCode == r.out
  {
    if FindById(t, id).None? then Step(None, t)
    else
      var code := Codes.ActivationCode(random);
      var p := NoChange.(activationCode := Some(Some(code)));
      FirstMatchAfterPatch(t, id, p);
      Step(Some(code), PatchRows(t, id, p))
  }

  // ---------------------------------------------------------------------------
  // Recovery

  /** The columns `setRecoveryCode` writes: code and expiry together. */
  function RecoveryPatch(code: string, expires: int): Patch {
    NoChange.(recoveryCode := Some(Some(code)), recoveryCodeExpires := Some(Some(expires)))
  }

  /** `setRecoveryCode`: null and no change for an unknown id; else both columns set. */
  function SetRecoveryCode(t: Table, id: Id, code: string, expires: int): (r: Step<Option<Account>>)
    ensures r.out.None? <==> forall j | 0 <= j < |t| :: t[j].id != id
    ensures r.out.None? ==> r.table == t
    ensures r.out.Some? ==>
      && r.out.value.id == id
      && r.out.value.recoveryCode == Some(code)
      && r.out.value.recoveryCodeExpires == Some(expires)
      && r.table == PatchRows(t, id, RecoveryPatch(code, expires))
      && r.out.value == Apply(FindById(t, id).value, RecoveryPatch(code, expires))
  {
    if FindById(t, id).None? then Step(None, t)
    else
      var t' := PatchRows(t, id, RecoveryPatch(code, expires));
      FirstMatchAfterPatch(t, id, RecoveryPatch(code, expires));
      Step(FindById(t', id), t')
  }

  /** `new Date(expires)`: a NULL expiry reads as the epoch. */
  function ExpiryMillis(a: Account): int {
    if a.recoveryCodeExpires.Some? then a.recoveryCodeExpires.value else 0
  }

  /**
   `validateRecoveryCode` (data access): false for an unknown id or a stored
   code different from `code` (an absent `code` never equals a stored one);
   false when the expiry lies strictly before `now`; true otherwise. A pure read.
   */
  function ValidateRecoveryCode(t: Table, id: Id, code: Option<string>, now: int): (valid: bool)
    ensures valid <==>
      exists j | 0 <= j < |t| :: t[j].id == id && FindById(t, id) == Some(t[j])
        && code.Some? && t[j].recoveryCode == code && now <= ExpiryMillis(t[j])
  {
    match FindById(t, id)
    case None => false
    case Some(u) =>
      if u.recoveryCode.None? || u.recoveryCode != code then false
      else if ExpiryMillis(u) < now then false
      else
        assert t[FirstMatch(t, ById(id)).value] == u;
        true
  }

  /** For a known id the check reads the first row with that id: its code must equal `code` and its expiry not lie before `now`. */
  lemma ValidateRecoveryCodeAt(t: Table, id: Id, code: Option<string>, now: int)
    requires FindById(t, id).Some?
    ensures var a := FindById(t, id).value;
      ValidateRecoveryCode(t, id, code, now) <==> code.Some? && a.recoveryCode == code && now <= ExpiryMillis(a)
  {
    var j := FirstMatch(t, ById(id)).value;
    assert t[j] == FindById(t, id).value;
  }

  /** The expiry instant itself still accepts the code; one millisecond later it is refused. */
  lemma RecoveryExpiryBoundary(t: Table, id: Id, code: string)
    requires FindById(t, id).Some?
    requires FindById(t, id).value.recoveryCode == Some(code)
    ensures var e := ExpiryMillis(FindById(t, id).value);
      ValidateRecoveryCode(t, id, Some(code), e) && !ValidateRecoveryCode(t, id, Some(code), e + 1)
  {
  }
}

=== FILE: views.dfy ===
/**
 The public form of a user row returned by the user, auth and Discord
 controllers: the row with its `password` column removed
 (`const { password, ...userWithoutPassword } = user`).
 */
module Views {

  import opened JsValues
  import opened UserModel

  /** A user row without the password hash. Every other column is kept. */
  datatype UserView = UserView(
    id: Id,
    username: string,
    email: Option<string>,
    isActive: bool,
    activationCode: Option<string>,
    discordId: Option<string>,
    discordUsername: Option<string>,
    discordAvatar: Option<string>,
    recoveryCode: Option<string>,
    recoveryCodeExpires: Option<int>)

  /** Drops the password hash. */
  function WithoutPassword(a: Account): UserView {
    UserView(a.id, a.username, a.email, a.isActive, a.activationCode,
             a.discordId, a.discordUsername, a.discordAvatar,
             a.recoveryCode, a.recoveryCodeExpires)
  }

  /** Puts a password hash back into a view. */
  function WithPassword(v: UserView, password: string): Account {
    Account(v.id, v.username, password, v.email, v.isActive, v.activationCode,
            v.discordId, v.discordUsername, v.discordAvatar,
            v.recoveryCode, v.recoveryCodeExpires)
  }

  /**
   Stripping loses the password and nothing else: the view together with
   the hash gives back the row, and two rows differing only in their hash
   have the same view.
   */
  lemma ViewLosesOnlyPassword(a: Account, b: Account)
    ensures WithPassword(WithoutPassword(a), a.password) == a
    ensures WithoutPassword(a) == WithoutPassword(b) <==> a.(password := b.password) == b
  {
  }

  /**
   A public row that also leaves out the activation code and the recovery
   columns: what a listing open to anyone can show without handing out a
   code that redeems or resets the account.
   */
  datatype PublicView = PublicView(
    id: Id,
    username: string,
    email: Option<string>,
    isActive: bool,
    discordId: Option<string>,
    discordUsername: Option<string>,
    discordAvatar: Option<string>)

  /** Drops the password hash, the activation code, and the recovery code with its expiry. */
  function WithoutSecrets(a: Account): PublicView {
    PublicView(a.id, a.username, a.email, a.isActive, a.discordId, a.discordUsername, a.discordAvatar)
  }

  /** Puts the four secret columns back into a public view. */
  function WithSecrets(v: PublicView, password: string, activationCode: Option<string>,
                       recoveryCode: Option<string>, recoveryCodeExpires: Option<int>): Account {
    Account(v.id, v.username, password, v.email, v.isActive, activationCode,
            v.discordId, v.discordUsername, v.discordAvatar, recoveryCode, recoveryCodeExpires)
  }

  /**
   The public view loses exactly the hash, the activation code and the
   recovery columns: with them it rebuilds the row, and two rows have the
   same public view exactly when they differ at most in those four columns.
   */
  lemma PublicViewLosesOnlySecrets(a: Account, b: Account)
    ensures WithSecrets(WithoutSecrets(a), a.password, a.activationCode, a.recoveryCode, a.recoveryCodeExpires) == a
    ensures WithoutSecrets(a) == WithoutSecrets(b) <==>
      a.(password := b.password, activationCode := b.activationCode,
         recoveryCode := b.recoveryCode, recoveryCodeExpires := b.recoveryCodeExpires) == b
  {
  }
}
